=== FILE: README.md ===
# RUT verification and unit merge, modelled in Dafny

This project models the logic of a community-voting web application. The
application checks a voter's Chilean identity card against their account,
and it keeps each account's list of housing units up to date. Two parts of
the application carry all of its string logic, and both are modelled here
as pure functions over `seq<char>`:

- **RUT extraction and comparison** (`main.py`):
  - `normalize_rut` removes every `.` and uppercases; the `-` before the
    check character stays, so `12.345.678-5` normalises to `12345678-5`.
  - `find_rut_in_text` returns the first match of
    `\b(\d{1,2}[.]?\d{3}[.]?\d{3}-?[\dkK])\b` over the OCR lines, in order.
  - The `is_match` decision of the `upload` route compares the normalised
    detected token with the normalised `custom:Rut` claim.
  - `get_user_from_session` splits the ID token into three parts and pads
    the payload for base64 decoding.
- **User upsert** (`cognito_upsert_user.py`):
  - `get_env_variable` looks up a variable, with an optional fallback name.
  - The configuration guard checks for a user pool id and a region.
  - When a user already exists, the units (`custom:Unidad`) and the unit
    types (`custom:TipoUnidad`) are merged: split on `,`, strip, drop empty
    items, take the set union, sort, and join with `,`.

Modules:

- `Strings` holds the Python `str` operations the code relies on: `split`
  on one character, `join`, `strip` with Python's whitespace, and the
  code-point order `sorted` uses.
- `SortedStrings` holds `sorted(set(...))`.
- `Rut` holds the character classes, the token shape and `normalize_rut`.
- `RutSearch` holds the regex engine and the search.
- `Upload` holds the route's decision.
- `SessionToken` holds the token split and padding.
- `UnitMerge` holds the merge and the attributes an upsert sends.
- `EnvConfig` holds the environment lookup and the configuration guard.

The regex is modelled twice:

- **As an engine.** It tries the sixteen ways of resolving the four greedy
  quantifiers in the order a backtracking matcher tries them. The first one
  whose characters fit and that ends at a word boundary is the match.
- **As a reference.** `Rut.IsRutShape` describes an acceptable token,
  reading it from the right.

The lemmas relate the two:

- The engine's match at a position is the longest word-bounded RUT-shaped
  token starting there.
- The line search returns the leftmost such token.
- `find_rut_in_text` returns the first line's token, or nothing exactly
  when no line has one.

## Model

| member | source | states |
|---|---|---|
| Rut.ToUpper | main.py:51 | ASCII lower-case letters map to the letter 32 code points below; every other character is unchanged; no result is lower-case |
| Rut.NormalizeRut | main.py:50-51 | the result has no `.` and no lower-case letter |
| Rut.NormalizeLength | main.py:51 | normalising shortens a string by exactly its number of `.` characters; with `NormalizeKeepsOthers`, nothing but dots is removed |
| Rut.NormalizeKeepsOthers | main.py:51 | every character that is not `.` or a letter (the `-` included) occurs in the result as often as in the input |
| Rut.NormalizeInPlace | main.py:51 | on a string without `.` every character stays at its position, uppercased: the order of what is kept does not change |
| Rut.NormalizeConcat | main.py:51 | normalisation distributes over concatenation (it works character by character) |
| Rut.NormalizeClaim | main.py:50-51 | `None` and `""` normalise to `""`; any other string goes through `NormalizeRut` |
| Rut.NormalizeFixpoint | main.py:51 | a string with no `.` and no lower-case letter is unchanged |
| Rut.NormalizeIdempotent | main.py:51 | normalising twice equals normalising once |
| Rut.NormalizeClaimIdempotent | main.py:50-51 | the guarded normaliser is idempotent too, `None` included |
| Rut.IsDigit | main.py:63 | `\d`, restricted to ASCII digits; no contract of its own, used by `IsRutBody` and `Admits` and stated through `RutBodyBounds` and `RutShapeBounds` |
| Rut.IsWordChar | main.py:63 | `\w`, restricted to ASCII letters, digits and `_`; no contract of its own, used by `IsBoundary` |
| Rut.IsCheckChar | main.py:63 | `[\dkK]`, the check character; no contract of its own, used by `IsRutShape` and stated through `RutShapeBounds` and `NormalizedRutChars` |
| Rut.IsRutShape | main.py:63 | the reference description of a token the pattern `\d{1,2}[.]?\d{3}[.]?\d{3}-?[\dkK]` accepts, read from the right; no contract of its own, related to the engine by `FitsIsRutShape` and `RutShapeFits`, bounded by `RutShapeBounds` |
| Rut.RutBodyBounds | main.py:63 | the digit groups `\d{1,2}[.]?\d{3}[.]?\d{3}` span 7 to 10 characters, each a digit or `.` |
| Rut.RutShapeBounds | main.py:63 | a token of the pattern's shape has 8 to 12 characters, each a digit, `.`, `-`, `k` or `K` |
| RutSearch.IsBoundary | main.py:63 | `\b`: a word character on exactly one side of the position; no contract of its own, used by `RutAt` and stated through `MatchAtSound`, `MatchAtComplete` and `SearchLineLeftmost` |
| RutSearch.MatchAt | main.py:63 | the regex tried at one start: a leading `\b`, then the quantifier resolutions in trial order; no contract of its own, its behaviour is stated by `MatchAtSound`, `MatchAtComplete` and `MatchAtLongest` |
| RutSearch.SearchFrom | main.py:65 | `search` from a start position: the match at the first start that has one; no contract of its own, stated by `SearchFromNone` and `SearchFromLeftmost` |
| RutSearch.SearchLine | main.py:65 | `rut_pattern.search(line)`; no contract of its own, stated by `SearchLineNone` and `SearchLineLeftmost` |
| RutSearch.FindRutInText | main.py:62-67 | `find_rut_in_text` over the lines in order; no contract of its own, stated by `FindNoneIff`, `FindFirstMatch`, `FindStopsAtFirstMatch` and `FindResultIsRut` |
| RutSearch.FitsIsRutShape | main.py:63 | text that fits any of the sixteen resolved patterns has the RUT shape |
| RutSearch.RutShapeFits | main.py:63 | every RUT-shaped text fits the resolved pattern that its own dots and dash select, so the engine and the shape describe the same tokens |
| RutSearch.Priority | main.py:63 | the order in which a backtracking matcher tries the sixteen resolutions of the greedy quantifiers `\d{1,2}`, `[.]?`, `[.]?`, `-?`: each quantifier first takes its character, and an earlier one changes its choice only after every choice of the later ones has failed; no contract of its own, stated through `Rank`, `TwoFits` and `AcceptedOrder` |
| RutSearch.Rank | main.py:63 | each resolution of the quantifiers has a place in the matcher's trial order |
| RutSearch.TwoFits | main.py:63 | when a shorter and a longer resolution both fit at one start and the shorter ends at a word boundary, they are `d ddd ddd d` and `dd ddd ddd-c`, and the longer is tried first |
| RutSearch.AcceptedOrder | main.py:63 | of two accepted resolutions, the one tried first is never the shorter |
| RutSearch.FirstAccepted | main.py:63-65 | the resolution the matcher takes comes at or after where it starts trying, and when there is one it fits and ends at a word boundary |
| RutSearch.FirstAcceptedIsFirst | main.py:63-65 | no resolution that fits and ends at a word boundary comes before the one the matcher takes |
| RutSearch.AcceptsIsRutAt | main.py:63 | an accepted resolution spans a word-bounded RUT-shaped token |
| RutSearch.RutAtAccepts | main.py:63 | every word-bounded RUT-shaped token is accepted by some resolution |
| RutSearch.MatchAtSound | main.py:63-65 | a match at a position is a word-bounded RUT-shaped token of the line that starts there |
| RutSearch.MatchAtComplete | main.py:63-65 | there is no match at a position exactly when no word-bounded RUT-shaped token starts there |
| RutSearch.MatchAtNone | main.py:63-65 | where no word-bounded RUT-shaped token starts, the matcher finds nothing |
| RutSearch.MatchAtSome | main.py:63-65 | wherever a word-bounded RUT-shaped token starts, the matcher finds something |
| RutSearch.MatchAtLongest | main.py:63-65 | the match at a position is at least as long as any word-bounded RUT-shaped token starting there |
| RutSearch.SearchFromNone | main.py:65 | scanning from a position finds nothing exactly when no match starts at or after it |
| RutSearch.SearchFromLeftmost | main.py:65 | scanning returns the match at the first position that has one |
| RutSearch.SearchLineNone | main.py:65 | `search` on a line finds nothing exactly when the line has no word-bounded RUT-shaped token |
| RutSearch.SearchLineLeftmost | main.py:65 | `search` returns the match at the leftmost start of such a token |
| RutSearch.FindNoneIff | main.py:62-67 | `find_rut_in_text` returns `None` exactly when no line holds a word-bounded RUT-shaped token |
| RutSearch.FindFirstMatch | main.py:64-66 | when line `n` is the first whose search finds something, `find_rut_in_text` returns that line's match |
| RutSearch.FindStopsAtFirstMatch | main.py:64-66 | the result is the first matching line's match, and the lines after that line do not affect it |
| RutSearch.FindResultIsRut | main.py:63-66 | a returned token has the RUT shape and 8 to 12 characters, and it occurs word-bounded in one of the lines |
| Upload.ClaimValue | main.py:180 | `user.get('custom:Rut', 'unknown')`; no contract of its own, used by `IsMatch` and stated through `NormalFormMatch` |
| Upload.IsMatch | main.py:222 | `is_match`; no contract of its own, stated by `IsMatchIff` |
| Upload.VerifyDocument | main.py:211-222 | the route after OCR; no contract of its own, stated by `NotFoundIff`, `ReportedTokenIsRut`, `MatchIff` and `NoClaimNeverMatches` |
| Upload.NormalizedRutChars | main.py:51 | normalising text made of RUT characters leaves only digits, `-` and `K` |
| Upload.NormalizedTokenFacts | main.py:222 | a normalised RUT token is non-empty and contains no `U`, so it can never equal the normalised default `unknown` |
| Upload.NotFoundIff | main.py:211-214 | the route reports that no RUT was found exactly when no OCR line holds a word-bounded RUT-shaped token |
| Upload.ReportedTokenIsRut | main.py:211-212 | a reported token is RUT-shaped and word-bounded in one OCR line |
| Upload.IsMatchIff | main.py:222 | for a detected token, `is_match` holds exactly when a RUT string was claimed and it equals the token once dots are removed and letters uppercased |
| Upload.NormalFormMatch | main.py:180 | a non-empty normal form without `U` equals the normalised claim value only when a RUT string was claimed and it normalises to that form; `unknown` and null never do |
| Upload.MatchIff | main.py:222-226 | the reported `match` flag obeys the same if-and-only-if |
| Upload.NoClaimNeverMatches | main.py:180 | a user whose `custom:Rut` is missing (compared as `unknown`) or null is never reported as matching |
| SessionToken.Pad | main.py:58 | the padding is exactly the requested number of `=` characters |
| SessionToken.PaddedPayload | main.py:53-58 | no token, an empty token, or a token without exactly two dots gives `None`; otherwise the result is the second segment followed only by `=`, with length a multiple of 4 and fewer than 4 padding characters |
| SessionToken.PaddedPayloadOfSegments | main.py:57-58 | a token made of three dot-free segments yields the middle segment padded to the least multiple of 4 not below its length |
| Strings.Join | cognito_upsert_user.py:65 | `",".join(...)`; no contract of its own, stated by `JoinSplit` and `SplitJoin` |
| Strings.Split | main.py:211 | `split` on one character never gives an empty list, and no piece contains the separator |
| Strings.JoinSplit | main.py:211 | `split` gives one more piece than there are separators, and joining the pieces with the separator gives the input back |
| Strings.SplitJoin | cognito_upsert_user.py:65 | splitting the join of separator-free pieces gives the pieces back |
| Strings.IsSpace | cognito_upsert_user.py:62 | the characters `str.isspace()` accepts, which `strip()` removes; no contract of its own, used by `TrimStart`, `TrimEnd` and `StripEmptyIffAllSpace` |
| Strings.TrimStart | cognito_upsert_user.py:20 | `lstrip` removes a prefix made only of whitespace and leaves a string that does not start with whitespace |
| Strings.TrimEnd | cognito_upsert_user.py:20 | `rstrip` removes a suffix made only of whitespace and leaves a string that does not end with whitespace |
| Strings.Strip | cognito_upsert_user.py:20 | neither end of the result of `strip` is whitespace, and a string already without such ends is unchanged |
| Strings.StripSlice | cognito_upsert_user.py:20 | the result of `strip` is the infix of the input starting right after its leading whitespace |
| Strings.StripAround | cognito_upsert_user.py:20 | what `strip` removes before and after that infix is whitespace only |
| Strings.StripEmptyIffAllSpace | cognito_upsert_user.py:62 | a piece strips to `""`, and is dropped, exactly when it is all whitespace |
| Strings.LexLess | cognito_upsert_user.py:64 | Python's `<` on `str`, which `sorted` uses; no contract of its own, stated by `LexLessIrreflexive`, `LexLessAsymmetric`, `LexLessTransitive` and `LexLessTotal` |
| Strings.LexLessIrreflexive | cognito_upsert_user.py:64 | no string is below itself in code-point order, so a strictly ascending list holds no item twice |
| Strings.LexLessTotal | cognito_upsert_user.py:64 | any two different strings are ordered one way or the other by code-point comparison |
| Strings.LexLessTransitive | cognito_upsert_user.py:64 | code-point comparison is transitive |
| Strings.LexLessAsymmetric | cognito_upsert_user.py:64 | code-point comparison is asymmetric |
| SortedStrings.Insert | cognito_upsert_user.py:64 | inserting into a strictly ascending list keeps it strictly ascending and adds exactly the new item |
| SortedStrings.SortedSet | cognito_upsert_user.py:64 | `sorted(set(items))` is strictly ascending and holds exactly the items |
| SortedStrings.StrictlySortedDistinct | cognito_upsert_user.py:64 | a strictly ascending list holds no item twice |
| SortedStrings.SortedUnique | cognito_upsert_user.py:64 | two strictly ascending lists with the same items are equal |
| SortedStrings.SortedSetCanonical | cognito_upsert_user.py:64 | `sorted(set(...))` depends only on which items occur |
| UnitMerge.KeepStripped | cognito_upsert_user.py:62 | the comprehension keeps only non-empty stripped items |
| UnitMerge.KeepStrippedElems | cognito_upsert_user.py:62 | the list the comprehension builds holds exactly the items of the set comprehension |
| UnitMerge.KeepStrippedNoComma | cognito_upsert_user.py:62 | the items read from a split on `,` contain no `,` |
| UnitMerge.CleanItems | cognito_upsert_user.py:62-63 | the set comprehension as a list: the stripped, non-empty comma pieces in order; its contract says every item is non-empty, stripped and comma-free, and `CleanItemsElems` states which items it holds |
| UnitMerge.ItemSet | cognito_upsert_user.py:62-63 | the set comprehension `set(u.strip() for u in ....split(',') if u.strip())` of one attribute value; no contract of its own, the reference that `CleanItemsElems`, `MergedItemsElems` and `MergeListItemSet` state the merge against |
| UnitMerge.CleanItemsElems | cognito_upsert_user.py:62-63 | the items read from an attribute value are exactly its set of stripped, non-empty comma pieces |
| UnitMerge.MergedItems | cognito_upsert_user.py:62-64 | the merged list is strictly ascending, holds exactly the items of both values, and each entry is non-empty, stripped and comma-free |
| UnitMerge.MergedItemsElems | cognito_upsert_user.py:62-64 | the merged items are the union of the two values' item sets |
| UnitMerge.MergeList | cognito_upsert_user.py:62-65 | the stored string `",".join(sorted(...))`; no contract of its own, stated by `MergeListResplit`, `MergeListItemSet`, `MergeListCommutative`, `MergeAbsorbs` and `MergeListIdempotent` |
| UnitMerge.MergeListResplit | cognito_upsert_user.py:62-65 | reading the stored string again gives back exactly the merged list; when the list is non-empty, a plain split on `,` does too |
| UnitMerge.MergeListItemSet | cognito_upsert_user.py:62-65 | the stored string holds exactly the items of the stored value and the new value |
| UnitMerge.MergeListCommutative | cognito_upsert_user.py:64-65 | the merge gives the same result with its two inputs swapped |
| UnitMerge.MergeAbsorbs | cognito_upsert_user.py:62-65 | merging a result with a value whose items it already holds leaves it unchanged |
| UnitMerge.MergeListIdempotent | cognito_upsert_user.py:62-65 | merging a result with itself, or with either input again, leaves it unchanged |
| UnitMerge.MergeWithEmpty | cognito_upsert_user.py:62-64 | merging into a value with no items gives the sorted, deduplicated items of the new value |
| UnitMerge.MergeWithMissing | cognito_upsert_user.py:62 | a missing attribute (default `''`) has no items, so the result is the sorted, deduplicated new list |
| UnitMerge.SingleItem | cognito_upsert_user.py:63 | a clean item given on its own reads back as that one item |
| UnitMerge.MergeTwoItems | cognito_upsert_user.py:62-64 | two different clean items merge into the two of them in ascending order |
| UnitMerge.PairingNotKept | cognito_upsert_user.py:68-71 | units and types are sorted independently, so a unit and the type given with it can end up at different positions |
| UnitMerge.PairingExample | cognito_upsert_user.py:62-71 | stored unit `101` (a `Depto`) plus new unit `B-5` (a `Bodega`) give units `101,B-5` and types `Bodega,Depto` |
| UnitMerge.StoredValue | cognito_upsert_user.py:62 | `current_attributes.get(name, '')`: the stored value, or `''` when the attribute is absent; no contract of its own, stated through `UpdateResult` and `MergeWithMissing` |
| UnitMerge.CreateAttributes | cognito_upsert_user.py:39-47 | the attributes `admin_create_user` is sent; no contract of its own, stated by `CreateThenUpdate` |
| UnitMerge.UpdateAttributes | cognito_upsert_user.py:62-81 | the attributes `admin_update_user_attributes` is sent; no contract of its own, stated by `UpdateResult` and `UpsertStable` |
| UnitMerge.Upsert | cognito_upsert_user.py:37-84 | creation when the user does not exist, an update otherwise; no contract of its own, stated by `UpdateResult`, `UpsertStable` and `CreateThenUpdate` |
| UnitMerge.Apply | cognito_upsert_user.py:48-84 | the effect of `admin_create_user` (lines 48-50) and `admin_update_user_attributes` (lines 82-84) on the stored attributes, as assumed here: sent attributes replace stored ones, the rest are kept; no contract of its own |
| UnitMerge.UpdateResult | cognito_upsert_user.py:74-84 | after an update the user holds the row's e-mail, name, community and RUT; the item sets of the stored units and types grow by the row's; the update does not send `email_verified` |
| UnitMerge.UpsertStable | cognito_upsert_user.py:57-84 | running the same row again on an existing user leaves its attributes unchanged |
| UnitMerge.CreateThenUpdate | cognito_upsert_user.py:39-84 | a created user holds the row's units and types as given; a second run stores them merged, with the same items |
| EnvConfig.Truthy | cognito_upsert_user.py:31 | Python truthiness of an optional string (set and not `""`), as `all([...])` and the fallback test use it; no contract of its own, stated through `GetEnvVariable` and `ConfigFor` |
| EnvConfig.GetEnvVariable | cognito_upsert_user.py:13-21 | the result is `None` exactly when the primary is unset and the fallback name is empty, absent or unset; a set primary, even empty, wins; a result is always stripped |
| EnvConfig.FallbackOnlyWhenUnset | cognito_upsert_user.py:15-17 | when the primary variable is set, the fallback name does not affect the result |
| EnvConfig.ConfigFor | cognito_upsert_user.py:28-33 | the upsert proceeds exactly when `COGNITO_USER_POOL_ID` is set and not all whitespace, and either `AWS_REGION` is set and not all whitespace or `AWS_REGION` is unset and `AWS_DEFAULT_REGION` is set and not all whitespace; the configuration then holds the stripped pool id and the stripped value of whichever region variable was used |
| EnvConfig.BlankRegionBlocksFallback | cognito_upsert_user.py:29-33 | an `AWS_REGION` that is set but blank stops the upsert, whatever `AWS_DEFAULT_REGION` holds |
| EnvConfig.DefaultRegionUsed | cognito_upsert_user.py:29-33 | with `AWS_REGION` unset, a non-blank `AWS_DEFAULT_REGION` supplies the region |

## Left out

- `crop_id_card` and the Tesseract call (main.py:70-110, 205) are left out: OpenCV contour geometry and OCR are foreign libraries. The OCR text is an input to `Upload.VerifyDocument`.
- The Flask routes, the session, the OAuth code exchange, `base64`/`json` decoding and the DynamoDB `put_item` of `save_data` are left out: they are I/O and framework glue. `SessionToken.PaddedPayload` stops at the padded payload.
- The Cognito calls are left out, and so are their error paths: `admin_create_user`, `admin_get_user`, `admin_update_user_attributes` and `admin_set_user_password`, together with the `ClientError` branches and the password step. `UnitMerge.Upsert` takes "user exists" as an input, and `UnitMerge.Apply` models an update as overwriting the attributes it sends.
- The CSV loop of cognito_upsert_user.py, the other Cognito scripts, config.py, export_to_excel.py, upload_to_s3.py, clear_dynamo.py and static/js/form.js are left out: they are I/O only.
- `Rut.IsDigit`, `Rut.IsWordChar`, `Rut.IsCheckChar`, `Rut.IsRutShape`, `RutSearch.IsBoundary`, `RutSearch.MatchAt`, `RutSearch.SearchFrom`, `RutSearch.SearchLine`, `RutSearch.FindRutInText`, `Upload.VerifyDocument`: `\d` and `\w` are ASCII only. Python 3 `str` patterns also match non-ASCII digits and letters, so on a line of non-ASCII digits such as `١٢٣٤٥٦٧٨٩` Python's `search` can find a token where these members find none, and a non-ASCII letter next to a token changes where `\b` holds. OCR output in Spanish is taken to use ASCII digits.
- `Rut.ToUpper`, `Rut.NormalizeRut`: `upper()` is modelled for ASCII letters only. Python also maps non-ASCII letters, and the model keeps those unchanged.
- `UnitMerge.Attributes` covers the seven attributes the upsert writes. Cognito's other attributes are neither read nor written by this code.
- `UnitMerge.UpdateResult` and `UnitMerge.UpsertStable` rest on `UnitMerge.Apply`, which keeps every stored attribute a call does not send. What Cognito does to `email_verified` when `email` changes is Cognito's behaviour, decided by no code here, and it is not modelled.

=== FILE: env_config.dfy ===
/**
  The environment lookup of the bulk user upsert: `get_env_variable`, which
  falls back to a second variable name only when the first is not set at
  all, and the check that both the user pool id and a region are configured
  before any Cognito call is made.
 */
module EnvConfig {
  import opened Options
  import opened Strings

  /** The process environment, read once: variable name to value. */
  type Env = map<string, string>

  /** Python truthiness of an optional string: set and not "". */
  predicate Truthy(x: Option<string>) {
    x.Some? && x.value != ""
  }

  /**
    `get_env_variable(varName, fallbackVarName)`: the primary variable when
    it is set (even to "" or to whitespace), otherwise the fallback when a
    non-empty fallback name is given; a value found is stripped.
   */
  function GetEnvVariable(env: Env, varName: string, fallbackVarName: Option<string>): (r: Option<string>)
    ensures r.None? <==> varName !in env && (!Truthy(fallbackVarName) || fallbackVarName.value !in env)
    ensures r.Some? ==> IsStripped(r.value)
    ensures varName in env ==> r == Some(Strip(env[varName]))
    ensures varName !in env && Truthy(fallbackVarName) && fallbackVarName.value in env ==>
              r == Some(Strip(env[fallbackVarName.value]))
  {
    var value :=
      if varName in env then Some(env[varName])
      else if Truthy(fallbackVarName) && fallbackVarName.value in env then Some(env[fallbackVarName.value])
      else None;
    match value
    case Some(v) => Some(Strip(v))
    case None => None
  }

  /** The fallback name is consulted only when the primary variable is missing. */
  lemma FallbackOnlyWhenUnset(env: Env, varName: string, f1: Option<string>, f2: Option<string>)
    requires varName in env
    ensures GetEnvVariable(env, varName, f1) == GetEnvVariable(env, varName, f2)
  {
  }

  /** What the upsert needs before it may call Cognito. */
  datatype Config = Config(userPoolId: string, region: string)

  const PoolVar := "COGNITO_USER_POOL_ID"
  const RegionVar := "AWS_REGION"
  const DefaultRegionVar := "AWS_DEFAULT_REGION"

  /** A set variable strips to "" exactly when its value is all whitespace. */
  lemma BlankIffAllSpace(env: Env, name: string)
    ensures name in env ==> (Strip(env[name]) == "" <==> AllSpace(env[name]))
  {
    if name in env { StripEmptyIffAllSpace(env[name]); }
  }

  /**
    The guard at the top of `create_or_update_cognito_user`: the pool id
    must be set and not blank, and so must `AWS_REGION`, or, only when
    `AWS_REGION` is not set at all, `AWS_DEFAULT_REGION`; otherwise the
    upsert reports the error and returns False. The configuration holds the
    stripped values.
   */
  function ConfigFor(env: Env): (r: Option<Config>)
    ensures r.Some? <==>
              && PoolVar in env && !AllSpace(env[PoolVar])
              && ((RegionVar in env && !AllSpace(env[RegionVar]))
                  || (RegionVar !in env && DefaultRegionVar in env && !AllSpace(env[DefaultRegionVar])))
    ensures r.Some? ==>
              r.value == Config(Strip(env[PoolVar]),
                                Strip(if RegionVar in env then env[RegionVar] else env[DefaultRegionVar]))
  {
    BlankIffAllSpace(env, PoolVar);
    BlankIffAllSpace(env, RegionVar);
    BlankIffAllSpace(env, DefaultRegionVar);
    var pool := GetEnvVariable(env, PoolVar, None);
    var region := GetEnvVariable(env, RegionVar, Some(DefaultRegionVar));
    if Truthy(pool) && Truthy(region) then Some(Config(pool.value, region.value)) else None
  }

  /**
    A region variable that is set but blank hides `AWS_DEFAULT_REGION`: the
    configuration is missing however the default region is set.
   */
  lemma BlankRegionBlocksFallback(env: Env)
    requires RegionVar in env && AllSpace(env[RegionVar])
    ensures ConfigFor(env).None?
  {
    StripEmptyIffAllSpace(env[RegionVar]);
  }

  /** When `AWS_REGION` is unset, a non-blank `AWS_DEFAULT_REGION` supplies the region. */
  lemma DefaultRegionUsed(env: Env)
    requires RegionVar !in env && DefaultRegionVar in env
    requires PoolVar in env && !AllSpace(env[PoolVar]) && !AllSpace(env[DefaultRegionVar])
    ensures ConfigFor(env) == Some(Config(Strip(env[PoolVar]), Strip(env[DefaultRegionVar])))
  {
    StripEmptyIffAllSpace(env[PoolVar]);
    StripEmptyIffAllSpace(env[DefaultRegionVar]);
  }
}

=== FILE: options.dfy ===
/** A value that may be missing: Python's `None` or a value. */
module Options {
  datatype Option<T> = None | Some(value: T)
}

=== FILE: rut.dfy ===
/**
  Chilean RUN/RUT identifiers as main.py handles them: the character classes
  of the extraction pattern, the shape of a token it accepts, and
  `normalize_rut`, the comparison key for a detected and a claimed RUT.
 */
module Rut {
  import opened Options
  import opened Strings

  /** `\d`, restricted to ASCII decimal digits. */
  predicate IsDigit(c: char) {
    '0' <= c <= '9'
  }

  /** `\w`, restricted to ASCII letters, ASCII digits and `_`. */
  predicate IsWordChar(c: char) {
    IsDigit(c) || 'a' <= c <= 'z' || 'A' <= c <= 'Z' || c == '_'
  }

  /** `[\dkK]`: the check character that ends a RUT. */
  predicate IsCheckChar(c: char) {
    IsDigit(c) || c == 'k' || c == 'K'
  }

  predicate IsLower(c: char) {
    'a' <= c <= 'z'
  }

  /** Python's `str.upper()` on one character, for ASCII letters. */
  function ToUpper(c: char): (u: char)
    ensures !IsLower(u)
    ensures IsLower(c) ==> 'A' <= u <= 'Z' && u as int + 32 == c as int
    ensures !IsLower(c) ==> u == c
  {
    if IsLower(c) then (c as int - 32) as char else c
  }

  predicate AllDigits(s: string) {
    forall i :: 0 <= i < |s| ==> IsDigit(s[i])
  }

  /**
    `normalize_rut` on a string: every `.` removed and letters uppercased.
    The `-` before the check character is kept.
   */
  function NormalizeRut(s: string): (r: string)
    ensures '.' !in r
    ensures forall i :: 0 <= i < |r| ==> !IsLower(r[i])
  {
    if |s| == 0 then ""
    else (if s[0] == '.' then "" else [ToUpper(s[0])]) + NormalizeRut(s[1..])
  }

  /** Normalisation shortens a string by exactly its number of dots. */
  lemma {:induction false} NormalizeLength(s: string)
    ensures |NormalizeRut(s)| == |s| - Count(s, '.')
  {
    if |s| > 0 {
      NormalizeLength(s[1..]);
    }
  }

  /**
    Normalisation removes no character other than `.` and changes no
    character other than a letter: every other character (the `-` among
    them) occurs as often in the result as in the input.
   */
  lemma {:induction false} NormalizeKeepsOthers(s: string, c: char)
    requires c != '.' && !IsLower(c) && !('A' <= c <= 'Z')
    ensures Count(NormalizeRut(s), c) == Count(s, c)
  {
    if |s| > 0 {
      var head := if s[0] == '.' then "" else [ToUpper(s[0])];
      NormalizeKeepsOthers(s[1..], c);
      CountConcat(head, NormalizeRut(s[1..]), c);
    }
  }

  /**
    `normalize_rut(x)` including its guard: Python's `None` and `""` are both
    falsy and give `""`.
   */
  function NormalizeClaim(x: Option<string>): (r: string)
    ensures x.None? || x == Some("") ==> r == ""
    ensures x.Some? ==> r == NormalizeRut(x.value)
  {
    match x
    case None => ""
    case Some(s) => if s == "" then "" else NormalizeRut(s)
  }

  /** Normalisation works character by character: it distributes over concatenation. */
  lemma {:induction false} NormalizeConcat(a: string, b: string)
    ensures NormalizeRut(a + b) == NormalizeRut(a) + NormalizeRut(b)
  {
    if |a| > 0 {
      var head := if a[0] == '.' then "" else [ToUpper(a[0])];
      assert NormalizeRut(a + b) == head + NormalizeRut(a[1..] + b) by {
        assert (a + b)[1..] == a[1..] + b && (a + b)[0] == a[0];
      }
      NormalizeConcat(a[1..], b);
      var x, y := NormalizeRut(a[1..]), NormalizeRut(b);
      assert head + (x + y) == (head + x) + y;
    } else {
      assert a + b == b;
    }
  }

  /** A string with no `.` and no lower-case letter is already normal. */
  lemma {:induction false} NormalizeFixpoint(s: string)
    requires '.' !in s
    requires forall i :: 0 <= i < |s| ==> !IsLower(s[i])
    ensures NormalizeRut(s) == s
  {
    if |s| > 0 {
      NormalizeFixpoint(s[1..]);
      assert s == [s[0]] + s[1..];
    }
  }

  /**
    Between the dots nothing moves: on a string without `.` normalisation
    keeps every character in place, uppercasing letters.
   */
  lemma {:induction false} NormalizeInPlace(s: string)
    requires '.' !in s
    ensures |NormalizeRut(s)| == |s|
    ensures forall i :: 0 <= i < |s| ==> NormalizeRut(s)[i] == ToUpper(s[i])
  {
    if |s| > 0 {
      NormalizeInPlace(s[1..]);
      assert NormalizeRut(s) == [ToUpper(s[0])] + NormalizeRut(s[1..]);
    }
  }

  /** `normalize_rut(normalize_rut(x)) == normalize_rut(x)`. */
  lemma NormalizeIdempotent(s: string)
    ensures NormalizeRut(NormalizeRut(s)) == NormalizeRut(s)
  {
    NormalizeFixpoint(NormalizeRut(s));
  }

  /** The same for the guarded form, including `None`. */
  lemma NormalizeClaimIdempotent(x: Option<string>)
    ensures NormalizeClaim(Some(NormalizeClaim(x))) == NormalizeClaim(x)
  {
    if x.Some? { NormalizeIdempotent(x.value); }
  }

  /** Drops one `.` from the end of `s`, if there is one: the `[.]?` between digit groups. */
  function DropDot(s: string): (r: string)
    ensures r == s || (|s| > 0 && s[|s| - 1] == '.' && r == s[..|s| - 1])
  {
    if |s| > 0 && s[|s| - 1] == '.' then s[..|s| - 1] else s
  }

  /** `\d{1,2}[.]?\d{3}[.]?\d{3}`, read from the right. */
  predicate IsRutBody(b: string) {
    && |b| >= 3 && AllDigits(b[|b| - 3..])
    && var b1 := DropDot(b[..|b| - 3]);
       && |b1| >= 3 && AllDigits(b1[|b1| - 3..])
       && var b2 := DropDot(b1[..|b1| - 3]);
          1 <= |b2| <= 2 && AllDigits(b2)
  }

  /**
    The text of a RUT token as the pattern `\d{1,2}[.]?\d{3}[.]?\d{3}-?[\dkK]`
    describes it, read from the right: a check character, an optional `-`,
    then the digit groups.
   */
  predicate IsRutShape(t: string) {
    && |t| >= 1 && IsCheckChar(t[|t| - 1])
    && var body := t[..|t| - 1];
       if |body| > 0 && body[|body| - 1] == '-' then IsRutBody(body[..|body| - 1]) else IsRutBody(body)
  }

  /** The digit groups of a RUT have 7 to 10 characters, all digits or `.`. */
  lemma RutBodyBounds(b: string)
    requires IsRutBody(b)
    ensures 7 <= |b| <= 10
    ensures forall i :: 0 <= i < |b| ==> IsDigit(b[i]) || b[i] == '.'
  {
    var b1 := DropDot(b[..|b| - 3]);
    var b2 := DropDot(b1[..|b1| - 3]);
    assert b1 == b[..|b1|];
    assert b2 == b[..|b2|];
    forall i | 0 <= i < |b| ensures IsDigit(b[i]) || b[i] == '.' {
      if i < |b2| {
        assert b[i] == b2[i];
      } else if |b1| - 3 <= i < |b1| {
        assert b[i] == b1[|b1| - 3..][i - (|b1| - 3)];
      } else if |b| - 3 <= i {
        assert b[i] == b[|b| - 3..][i - (|b| - 3)];
      }
    }
  }

  /** A RUT-shaped token has 8 to 12 characters, all of them digits, `.`, `-`, `k` or `K`. */
  lemma RutShapeBounds(t: string)
    requires IsRutShape(t)
    ensures 8 <= |t| <= 12
    ensures forall i :: 0 <= i < |t| ==> IsCheckChar(t[i]) || t[i] == '.' || t[i] == '-'
  {
    var body := t[..|t| - 1];
    var b := if |body| > 0 && body[|body| - 1] == '-' then body[..|body| - 1] else body;
    RutBodyBounds(b);
    assert b == t[..|b|];
    forall i | 0 <= i < |t| ensures IsCheckChar(t[i]) || t[i] == '.' || t[i] == '-' {
      if i < |b| { assert t[i] == b[i]; }
    }
  }
}

=== FILE: rut_search.dfy ===
/**
  `find_rut_in_text` of main.py: a search with the regular expression
  `\b(\d{1,2}[.]?\d{3}[.]?\d{3}-?[\dkK])\b` over each OCR line in turn.

  The engine below follows how a backtracking regex matcher resolves the
  pattern at one start position: the four quantifiers `\d{1,2}`, `[.]?`,
  `[.]?` and `-?` are greedy, so their sixteen combinations are tried in a
  fixed priority order and the first one whose characters fit and that is
  followed by a word boundary is the match. `Rut.IsRutShape` is the
  independent description of an acceptable token that the lemmas relate the
  engine to.
 */
module RutSearch {
  import opened Options
  import opened Rut

  /** `\b` at position `p`: a word character on exactly one side of `p`. */
  predicate IsBoundary(line: string, p: int)
    requires 0 <= p <= |line|
  {
    (p > 0 && IsWordChar(line[p - 1])) != (p < |line| && IsWordChar(line[p]))
  }

  /** One position of the pattern once the quantifiers have been resolved. */
  datatype CharClass = Digit | Dot | Dash | Check

  predicate Admits(k: CharClass, c: char) {
    match k
    case Digit => IsDigit(c)
    case Dot => c == '.'
    case Dash => c == '-'
    case Check => IsCheckChar(c)
  }

  /**
    How the quantifiers were resolved: whether `\d{1,2}` took two digits and
    whether each of `[.]?`, `[.]?` and `-?` took its character.
   */
  datatype Choice = Choice(twoDigits: bool, dot1: bool, dot2: bool, dash: bool)

  function Opt(taken: bool, k: CharClass): seq<CharClass> {
    if taken then [k] else []
  }

  function Lead(ch: Choice): seq<CharClass> {
    if ch.twoDigits then [Digit, Digit] else [Digit]
  }

  const Three: seq<CharClass> := [Digit, Digit, Digit]

  /** `\d{1,2}[.]?\d{3}[.]?\d{3}` with its quantifiers resolved by `ch`. */
  function BodyPattern(ch: Choice): seq<CharClass> {
    Lead(ch) + Opt(ch.dot1, Dot) + Three + Opt(ch.dot2, Dot) + Three
  }

  /** The whole pattern with its quantifiers resolved by `ch`. */
  function Pattern(ch: Choice): seq<CharClass> {
    BodyPattern(ch) + Opt(ch.dash, Dash) + [Check]
  }

  /**
    The combinations in the order the matcher tries them. Every quantifier
    is greedy, so it first takes its character, and an earlier quantifier
    changes its choice only after every choice of the later ones has failed.
   */
  const Priority: seq<Choice> := [
    Choice(true, true, true, true), Choice(true, true, true, false),
    Choice(true, true, false, true), Choice(true, true, false, false),
    Choice(true, false, true, true), Choice(true, false, true, false),
    Choice(true, false, false, true), Choice(true, false, false, false),
    Choice(false, true, true, true), Choice(false, true, true, false),
    Choice(false, true, false, true), Choice(false, true, false, false),
    Choice(false, false, true, true), Choice(false, false, true, false),
    Choice(false, false, false, true), Choice(false, false, false, false)
  ]

  /** `t` consists of exactly one character of each class in `pat`, in order. */
  predicate Fits(t: string, pat: seq<CharClass>) {
    |t| == |pat| && forall k :: 0 <= k < |pat| ==> Admits(pat[k], t[k])
  }

  /** `line[i..]` starts with characters of the classes in `pat`. */
  predicate FitsAt(line: string, i: nat, pat: seq<CharClass>) {
    i + |pat| <= |line| && Fits(line[i..i + |pat|], pat)
  }

  /** The pattern matches `line[i..j]` as a whole, word boundaries included. */
  predicate RutAt(line: string, i: nat, j: nat) {
    && i <= j <= |line|
    && IsBoundary(line, i) && IsBoundary(line, j)
    && IsRutShape(line[i..j])
  }

  lemma FitsConcat(t: string, p: seq<CharClass>, q: seq<CharClass>)
    requires |t| == |p| + |q|
    ensures Fits(t, p + q) <==> Fits(t[..|p|], p) && Fits(t[|p|..], q)
  {
    if Fits(t[..|p|], p) && Fits(t[|p|..], q) {
      forall k | 0 <= k < |p + q| ensures Admits((p + q)[k], t[k]) {
        if k < |p| { assert t[k] == t[..|p|][k]; } else { assert t[k] == t[|p|..][k - |p|]; }
      }
    }
  }

  /** Removing an optional trailing `.` leaves the text before it, when that text ends in a digit. */
  lemma FitsDropDot(s: string, p: seq<CharClass>, taken: bool)
    requires |p| > 0 && p[|p| - 1] == Digit
    requires |s| == |p| + |Opt(taken, Dot)|
    ensures Fits(s, p + Opt(taken, Dot)) ==> Fits(DropDot(s), p)
    ensures Fits(DropDot(s), p) && taken == (|s| > 0 && s[|s| - 1] == '.') ==> Fits(s, p + Opt(taken, Dot))
  {
    FitsConcat(s, p, Opt(taken, Dot));
    if taken {
      assert s[..|p|] == s[..|s| - 1];
    } else {
      assert s[..|p|] == s;
    }
  }

  lemma FitsDigits(s: string, p: seq<CharClass>)
    requires forall k :: 0 <= k < |p| ==> p[k] == Digit
    ensures Fits(s, p) <==> |s| == |p| && AllDigits(s)
  {
  }

  /**
    One digit group read from the right: text fits `p`, an optional `.` and
    three digits exactly when it ends in three digits and what precedes them,
    less the optional `.`, fits `p`.
   */
  lemma FitsGroup(b: string, p: seq<CharClass>, taken: bool)
    requires |p| > 0 && p[|p| - 1] == Digit
    requires Fits(b, p + Opt(taken, Dot) + Three)
    ensures |b| >= 3 && AllDigits(b[|b| - 3..])
    ensures Fits(DropDot(b[..|b| - 3]), p)
  {
    FitsConcat(b, p + Opt(taken, Dot), Three);
    FitsDigits(b[|b| - 3..], Three);
    FitsDropDot(b[..|b| - 3], p, taken);
  }

  lemma FitsGroupBack(b: string, p: seq<CharClass>, taken: bool)
    requires |p| > 0 && p[|p| - 1] == Digit
    requires |b| >= 3 && AllDigits(b[|b| - 3..])
    requires taken == (|b| > 3 && b[|b| - 4] == '.')
    requires Fits(DropDot(b[..|b| - 3]), p)
    ensures Fits(b, p + Opt(taken, Dot) + Three)
  {
    var s := b[..|b| - 3];
    assert taken == (|s| > 0 && s[|s| - 1] == '.');
    assert |s| == |p| + |Opt(taken, Dot)| by {
      if taken { assert |DropDot(s)| == |s| - 1; } else { assert DropDot(s) == s; }
    }
    FitsDropDot(s, p, taken);
    FitsDigits(b[|b| - 3..], Three);
    FitsConcat(b, p + Opt(taken, Dot), Three);
  }

  /** Text that fits a resolved body pattern is RUT digit groups. */
  lemma BodyFitsIsRutBody(b: string, ch: Choice)
    requires Fits(b, BodyPattern(ch))
    ensures IsRutBody(b)
  {
    var p1 := Lead(ch) + Opt(ch.dot1, Dot) + Three;
    FitsGroup(b, p1, ch.dot2);
    var b1 := DropDot(b[..|b| - 3]);
    FitsGroup(b1, Lead(ch), ch.dot1);
    FitsDigits(DropDot(b1[..|b1| - 3]), Lead(ch));
  }

  /** A check character after RUT digit groups, with or without a `-` between them, is a RUT-shaped token. */
  lemma ShapeOfParts(t: string, b: string, dash: bool)
    requires |t| >= 1 && IsCheckChar(t[|t| - 1]) && IsRutBody(b)
    requires t[..|t| - 1] == (if dash then b + "-" else b)
    ensures IsRutShape(t)
  {
    var body := t[..|t| - 1];
    if dash {
      assert body[..|body| - 1] == b;
    } else {
      assert b[|b| - 1] == b[|b| - 3..][2];
    }
  }

  /** Text that fits the whole pattern splits into digit groups, an optional `-` and a check character. */
  lemma PartsOfFits(t: string, ch: Choice)
    requires Fits(t, Pattern(ch))
    ensures |BodyPattern(ch)| < |t| && IsCheckChar(t[|t| - 1])
    ensures Fits(t[..|BodyPattern(ch)|], BodyPattern(ch))
    ensures t[..|t| - 1] == (if ch.dash then t[..|BodyPattern(ch)|] + "-" else t[..|BodyPattern(ch)|])
  {
    var withDash := BodyPattern(ch) + Opt(ch.dash, Dash);
    FitsConcat(t, withDash, [Check]);
    assert t[|withDash|..][0] == t[|t| - 1];
    var body := t[..|t| - 1];
    FitsConcat(body, BodyPattern(ch), Opt(ch.dash, Dash));
    var b := body[..|BodyPattern(ch)|];
    assert b == t[..|BodyPattern(ch)|];
    if ch.dash {
      assert body[|b|..][0] == body[|b|];
      assert body == b + "-";
    } else {
      assert body == b;
    }
  }

  /** Characters that fit a resolved pattern form a RUT-shaped token. */
  lemma FitsIsRutShape(t: string, ch: Choice)
    requires Fits(t, Pattern(ch))
    ensures IsRutShape(t)
  {
    PartsOfFits(t, ch);
    var b := t[..|BodyPattern(ch)|];
    BodyFitsIsRutBody(b, ch);
    ShapeOfParts(t, b, ch.dash);
  }

  /** How the quantifiers must have been resolved to produce the digit groups `b`. */
  function BodyChoice(b: string, dash: bool): Choice
    requires IsRutBody(b)
  {
    var s1 := b[..|b| - 3];
    var b1 := DropDot(s1);
    var s2 := b1[..|b1| - 3];
    var b2 := DropDot(s2);
    Choice(|b2| == 2, |s2| > 0 && s2[|s2| - 1] == '.', |s1| > 0 && s1[|s1| - 1] == '.', dash)
  }

  /** How the quantifiers must have been resolved to produce the token `t`. */
  function ChoiceOf(t: string): Choice
    requires IsRutShape(t)
  {
    var body := t[..|t| - 1];
    if |body| > 0 && body[|body| - 1] == '-' then BodyChoice(body[..|body| - 1], true)
    else BodyChoice(body, false)
  }

  lemma RutBodyFits(b: string, dash: bool)
    requires IsRutBody(b)
    ensures Fits(b, BodyPattern(BodyChoice(b, dash)))
  {
    var ch := BodyChoice(b, dash);
    var b1 := DropDot(b[..|b| - 3]);
    FitsDigits(DropDot(b1[..|b1| - 3]), Lead(ch));
    FitsGroupBack(b1, Lead(ch), ch.dot1);
    FitsGroupBack(b, Lead(ch) + Opt(ch.dot1, Dot) + Three, ch.dot2);
  }

  /** Digit groups that fit, an optional `-` and a check character fit the whole pattern. */
  lemma FitsFromParts(t: string, b: string, ch: Choice)
    requires |t| >= 1 && IsCheckChar(t[|t| - 1]) && Fits(b, BodyPattern(ch))
    requires t[..|t| - 1] == (if ch.dash then b + "-" else b)
    ensures Fits(t, Pattern(ch))
  {
    var body := t[..|t| - 1];
    FitsConcat(body, BodyPattern(ch), Opt(ch.dash, Dash));
    if ch.dash {
      assert body[..|b|] == b && body[|b|..] == "-";
    } else {
      assert body[..|b|] == b;
    }
    FitsConcat(t, BodyPattern(ch) + Opt(ch.dash, Dash), [Check]);
    assert t[..|body|] == body;
  }

  /** A RUT-shaped token splits into digit groups, an optional `-` and a check character. */
  lemma PartsOfShape(t: string) returns (b: string, dash: bool)
    requires IsRutShape(t)
    ensures |t| >= 1 && IsCheckChar(t[|t| - 1]) && IsRutBody(b)
    ensures ChoiceOf(t) == BodyChoice(b, dash)
    ensures t[..|t| - 1] == (if dash then b + "-" else b)
  {
    var body := t[..|t| - 1];
    dash := |body| > 0 && body[|body| - 1] == '-';
    b := if dash then body[..|body| - 1] else body;
    if dash {
      assert body == b + "-";
    }
  }

  /** Every RUT-shaped token fits the pattern resolved by its own choice. */
  lemma RutShapeFits(t: string)
    requires IsRutShape(t)
    ensures Fits(t, Pattern(ChoiceOf(t)))
  {
    var b, dash := PartsOfShape(t);
    RutBodyFits(b, dash);
    FitsFromParts(t, b, ChoiceOf(t));
  }

  /** The position of a combination in the order the matcher tries them. */
  function Rank(ch: Choice): (k: nat)
    ensures k < |Priority| && Priority[k] == ch
  {
    (if ch.twoDigits then 0 else 8) + (if ch.dot1 then 0 else 4)
    + (if ch.dot2 then 0 else 2) + (if ch.dash then 0 else 1)
  }

  function DotCount(taken: bool): nat {
    if taken then 1 else 0
  }

  /** Where the resolved body pattern has its dots; every other position is a digit. */
  lemma BodyPatternFacts(ch: Choice)
    ensures |BodyPattern(ch)| == |Lead(ch)| + DotCount(ch.dot1) + 6 + DotCount(ch.dot2)
    ensures forall k :: 0 <= k < |BodyPattern(ch)| ==>
      BodyPattern(ch)[k] == (if (ch.dot1 && k == |Lead(ch)|)
                                || (ch.dot2 && k == |Lead(ch)| + DotCount(ch.dot1) + 3)
                             then Dot else Digit)
  {
  }

  lemma PatternFacts(ch: Choice)
    ensures |Pattern(ch)| == |BodyPattern(ch)| + DotCount(ch.dash) + 1
    ensures forall k :: 0 <= k < |BodyPattern(ch)| ==> Pattern(ch)[k] == BodyPattern(ch)[k]
    ensures ch.dash ==> Pattern(ch)[|BodyPattern(ch)|] == Dash
    ensures Pattern(ch)[|Pattern(ch)| - 1] == Check
  {
  }

  lemma AdmitsAt(line: string, i: nat, pat: seq<CharClass>, k: nat)
    requires FitsAt(line, i, pat) && k < |pat|
    ensures Admits(pat[k], line[i + k])
  {
    assert line[i..i + |pat|][k] == line[i + k];
  }

  /**
    When a shorter and a longer combination both fit at one start and the
    shorter one is followed by `\b`, the longer one has its `-` right after
    the shorter one ends, the shorter one has none, and their digit groups
    agree up to the shorter one's length.
   */
  lemma TwoFitsBodies(line: string, i: nat, ch1: Choice, ch2: Choice)
    requires FitsAt(line, i, Pattern(ch1)) && FitsAt(line, i, Pattern(ch2))
    requires |Pattern(ch1)| < |Pattern(ch2)|
    requires IsBoundary(line, i + |Pattern(ch1)|)
    ensures !ch1.dash && ch2.dash
    ensures |BodyPattern(ch1)| + 1 == |BodyPattern(ch2)|
    ensures forall k :: 0 <= k < |BodyPattern(ch1)| ==> BodyPattern(ch1)[k] == BodyPattern(ch2)[k]
  {
    TwoFitsDash(line, i, ch1, ch2);
    var p1, p2 := Pattern(ch1), Pattern(ch2);
    var b1, b2 := BodyPattern(ch1), BodyPattern(ch2);
    BodyPatternFacts(ch1);
    BodyPatternFacts(ch2);
    PatternFacts(ch1);
    PatternFacts(ch2);
    forall k | 0 <= k < |b1| ensures b1[k] == b2[k] {
      AdmitsAt(line, i, p1, k);
      AdmitsAt(line, i, p2, k);
      SameBodyClass(p1[k], p2[k], line[i + k]);
    }
  }

  /** No character is both a digit and a `.`. */
  lemma SameBodyClass(a: CharClass, b: CharClass, c: char)
    requires a == Digit || a == Dot
    requires b == Digit || b == Dot
    requires Admits(a, c) && Admits(b, c)
    ensures a == b
  {
  }

  /** The longer combination has its `-` where the shorter one ends, and the shorter one has none. */
  lemma TwoFitsDash(line: string, i: nat, ch1: Choice, ch2: Choice)
    requires FitsAt(line, i, Pattern(ch1)) && FitsAt(line, i, Pattern(ch2))
    requires |Pattern(ch1)| < |Pattern(ch2)|
    requires IsBoundary(line, i + |Pattern(ch1)|)
    ensures !ch1.dash && ch2.dash
    ensures |BodyPattern(ch1)| + 1 == |BodyPattern(ch2)|
  {
    var p1, p2 := Pattern(ch1), Pattern(ch2);
    var n1 := |p1|;
    BodyPatternFacts(ch1);
    BodyPatternFacts(ch2);
    PatternFacts(ch1);
    PatternFacts(ch2);
    // the character after the shorter match is not a word character
    AdmitsAt(line, i, p1, n1 - 1);
    AdmitsAt(line, i, p2, n1);
    assert !IsWordChar(line[i + n1]);
    // so the longer match has its `-` there
    assert n1 == |BodyPattern(ch2)| && ch2.dash;
    assert !ch1.dash by {
      AdmitsAt(line, i, p1, n1 - 2);
      AdmitsAt(line, i, p2, n1 - 2);
    }
  }

  /** A body pattern one longer than another and agreeing with it is `dd ddd ddd` against `d ddd ddd`. */
  lemma BodyPrefix(ch1: Choice, ch2: Choice)
    requires |BodyPattern(ch1)| + 1 == |BodyPattern(ch2)|
    requires forall k :: 0 <= k < |BodyPattern(ch1)| ==> BodyPattern(ch1)[k] == BodyPattern(ch2)[k]
    ensures !ch1.twoDigits && !ch1.dot1 && !ch1.dot2
    ensures ch2.twoDigits && !ch2.dot1 && !ch2.dot2
  {
    var b1, b2 := BodyPattern(ch1), BodyPattern(ch2);
    BodyPatternFacts(ch1);
    BodyPatternFacts(ch2);
    assert !ch2.dot2 by { assert b1[|b1| - 3] == b2[|b2| - 4]; }
    assert !ch1.dot2 by { assert b1[|b1| - 4] == b2[|b2| - 5]; }
    assert !ch2.dot1 by { assert b1[|Lead(ch2)|] == b2[|Lead(ch2)|]; }
    assert !ch1.dot1 by { assert b1[|Lead(ch1)|] == b2[|Lead(ch1)|]; }
  }

  /**
    At one start position, two matches of different lengths exist only as
    the eight digits `d ddd ddd d` inside `dd ddd ddd - c`.
   */
  lemma TwoFits(line: string, i: nat, ch1: Choice, ch2: Choice)
    requires FitsAt(line, i, Pattern(ch1)) && FitsAt(line, i, Pattern(ch2))
    requires |Pattern(ch1)| < |Pattern(ch2)|
    requires IsBoundary(line, i + |Pattern(ch1)|)
    ensures ch1 == Choice(false, false, false, false)
    ensures ch2 == Choice(true, false, false, true)
    ensures Rank(ch2) < Rank(ch1)
  {
    TwoFitsBodies(line, i, ch1, ch2);
    BodyPrefix(ch1, ch2);
  }

  /** The `k`-th combination fits at `i` and is followed by `\b`. */
  predicate Accepts(line: string, i: nat, k: nat)
    requires k < 16
  {
    var pat := Pattern(Priority[k]);
    FitsAt(line, i, pat) && IsBoundary(line, i + |pat|)
  }

  /** The first combination from the `k`-th on that the matcher accepts at `i`; 16 if none. */
  function FirstAccepted(line: string, i: nat, k: nat): (r: nat)
    requires k <= 16
    ensures k <= r <= 16
    ensures r < 16 ==> Accepts(line, i, r)
    decreases 16 - k
  {
    if k == 16 then 16
    else if Accepts(line, i, k) then k
    else FirstAccepted(line, i, k + 1)
  }

  /** No combination tried before the first accepted one is accepted. */
  lemma {:induction false} FirstAcceptedIsFirst(line: string, i: nat, k: nat, k': nat)
    requires k <= k' < 16 && Accepts(line, i, k')
    ensures FirstAccepted(line, i, k) <= k'
    decreases 16 - k
  {
    if Accepts(line, i, k) {
      assert FirstAccepted(line, i, k) == k;
    } else {
      assert k < k';
      FirstAcceptedIsFirst(line, i, k + 1, k');
      assert FirstAccepted(line, i, k) == FirstAccepted(line, i, k + 1);
    }
  }

  /**
    The regex tried at start `i` (what `search` does at each position): the
    leading `\b`, then the combinations in priority order.
   */
  function MatchAt(line: string, i: nat): Option<string>
    requires i <= |line|
  {
    if !IsBoundary(line, i) then None
    else
      var k := FirstAccepted(line, i, 0);
      if k == 16 then None else Some(line[i..i + |Pattern(Priority[k])|])
  }

  lemma RankOfPriority(k: nat)
    requires k < |Priority|
    ensures Rank(Priority[k]) == k
  {
  }

  /** An accepted combination is a word-bounded RUT-shaped token. */
  lemma AcceptsIsRutAt(line: string, i: nat, k: nat)
    requires k < 16 && Accepts(line, i, k) && i <= |line| && IsBoundary(line, i)
    ensures RutAt(line, i, i + |Pattern(Priority[k])|)
  {
    var ch := Priority[k];
    var pat := Pattern(ch);
    var n := |pat|;
    assert FitsAt(line, i, pat) && IsBoundary(line, i + n);
    FitsIsRutShape(line[i..i + n], ch);
  }

  /** Text at `i` that fits a resolved pattern and is followed by `\b` is accepted under that combination. */
  lemma FitsAccepts(line: string, i: nat, j: nat, ch: Choice)
    requires i <= j <= |line| && IsBoundary(line, j)
    requires Fits(line[i..j], Pattern(ch))
    ensures j == i + |Pattern(ch)|
    ensures Accepts(line, i, Rank(ch))
  {
    assert FitsAt(line, i, Pattern(ch));
  }

  /** A word-bounded RUT-shaped token is accepted under its own combination. */
  lemma RutAtAccepts(line: string, i: nat, j: nat)
    requires RutAt(line, i, j)
    ensures j == i + |Pattern(ChoiceOf(line[i..j]))|
    ensures Accepts(line, i, Rank(ChoiceOf(line[i..j])))
  {
    RutShapeFits(line[i..j]);
    FitsAccepts(line, i, j, ChoiceOf(line[i..j]));
  }

  /** Of two combinations accepted at one start, the one tried first is at least as long. */
  lemma AcceptedOrder(line: string, i: nat, k1: nat, k2: nat)
    requires k1 < k2 < 16
    requires Accepts(line, i, k1) && Accepts(line, i, k2)
    ensures |Pattern(Priority[k1])| >= |Pattern(Priority[k2])|
  {
    var ch1, ch2 := Priority[k1], Priority[k2];
    if |Pattern(ch1)| < |Pattern(ch2)| {
      TwoFits(line, i, ch1, ch2);
      RankOfPriority(k1);
      RankOfPriority(k2);
    }
  }

  /** Any word-bounded RUT-shaped token at `i` ends no later than the accepted combination's. */
  lemma MatchAtBound(line: string, i: nat, j: nat)
    requires RutAt(line, i, j)
    ensures FirstAccepted(line, i, 0) < 16
    ensures j <= i + |Pattern(Priority[FirstAccepted(line, i, 0)])|
  {
    var k := FirstAccepted(line, i, 0);
    RutAtAccepts(line, i, j);
    var ch := ChoiceOf(line[i..j]);
    var r := Rank(ch);
    assert j == i + |Pattern(Priority[r])|;
    assert Accepts(line, i, r);
    FirstAcceptedIsFirst(line, i, 0, r);
    assert k <= r;
    if k < r {
      assert Accepts(line, i, k);
      AcceptedOrder(line, i, k, r);
    }
  }

  /** What the matcher finds at `i` is a word-bounded RUT-shaped token starting at `i`. */
  lemma MatchAtSound(line: string, i: nat)
    requires i <= |line| && MatchAt(line, i).Some?
    ensures var t := MatchAt(line, i).value;
            RutAt(line, i, i + |t|) && t == line[i..i + |t|]
  {
    var k := FirstAccepted(line, i, 0);
    assert IsBoundary(line, i) && k < 16;
    var n := |Pattern(Priority[k])|;
    var t := MatchAt(line, i).value;
    assert t == line[i..i + n];
    assert i + |t| == i + n;
    AcceptsIsRutAt(line, i, k);
  }

  /** The matcher finds nothing at `i` exactly when no word-bounded RUT-shaped token starts there. */
  lemma MatchAtComplete(line: string, i: nat)
    requires i <= |line|
    ensures MatchAt(line, i).None? <==> forall j: nat :: !RutAt(line, i, j)
  {
    if MatchAt(line, i).Some? {
      MatchAtSound(line, i);
    } else {
      forall j: nat | RutAt(line, i, j) ensures false {
        MatchAtBound(line, i, j);
      }
    }
  }

  /** What the matcher finds at `i` is the longest word-bounded RUT-shaped token there. */
  lemma MatchAtLongest(line: string, i: nat, j: nat)
    requires i <= |line| && MatchAt(line, i).Some? && RutAt(line, i, j)
    ensures j <= i + |MatchAt(line, i).value|
  {
    MatchAtBound(line, i, j);
  }

  /** The matcher finds nothing where no word-bounded RUT-shaped token starts. */
  lemma MatchAtNone(line: string, i: nat)
    requires i <= |line|
    requires forall j: nat :: !RutAt(line, i, j)
    ensures MatchAt(line, i).None?
  {
    if MatchAt(line, i).Some? {
      MatchAtSound(line, i);
    }
  }

  /** What the matcher finds at `i`, as a token of the line. */
  lemma MatchAtToken(line: string, i: nat)
    requires i <= |line| && MatchAt(line, i).Some?
    ensures TokenAt(line, i, MatchAt(line, i).value)
  {
    MatchAtSound(line, i);
  }

  /** The matcher finds something wherever a word-bounded RUT-shaped token starts. */
  lemma MatchAtSome(line: string, i: nat, j: nat)
    requires RutAt(line, i, j)
    ensures MatchAt(line, i).Some?
  {
    MatchAtBound(line, i, j);
  }

  /** `pattern.search(line, i)`: the match at the first start from `i` on where there is one. */
  function SearchFrom(line: string, i: nat): Option<string>
    requires i <= |line|
    decreases |line| - i
  {
    var m := MatchAt(line, i);
    if m.Some? || i == |line| then m else SearchFrom(line, i + 1)
  }

  /** `pattern.search(line)`. */
  function SearchLine(line: string): Option<string> {
    SearchFrom(line, 0)
  }

  /** `find_rut_in_text`: the match in the first line that has one, or None. */
  function FindRutInText(lines: seq<string>): Option<string> {
    if |lines| == 0 then None
    else
      var m := SearchLine(lines[0]);
      if m.Some? then m else FindRutInText(lines[1..])
  }

  /** Where the matcher finds nothing, the search moves on to the next start. */
  lemma SearchFromStep(line: string, from: nat)
    requires from < |line| && MatchAt(line, from).None?
    ensures SearchFrom(line, from) == SearchFrom(line, from + 1)
  {
  }

  /** Where the matcher finds something, the search stops. */
  lemma SearchFromHere(line: string, from: nat)
    requires from <= |line| && MatchAt(line, from).Some?
    ensures SearchFrom(line, from) == MatchAt(line, from)
  {
  }

  lemma {:induction false} SearchFromNone(line: string, from: nat)
    requires from <= |line|
    ensures SearchFrom(line, from).None? <==> forall p: nat, q: nat :: from <= p ==> !RutAt(line, p, q)
    decreases |line| - from
  {
    if MatchAt(line, from).Some? {
      MatchAtSound(line, from);
    } else if from < |line| {
      MatchAtComplete(line, from);
      SearchFromNone(line, from + 1);
      assert forall p: nat, q: nat :: from <= p ==> !RutAt(line, p, q) <==> (from + 1 <= p ==> !RutAt(line, p, q));
    } else {
      MatchAtComplete(line, from);
      assert forall p: nat, q: nat :: from <= p ==> !RutAt(line, p, q);
    }
  }

  lemma {:induction false} SearchFromLeftmost(line: string, from: nat, i: nat, j: nat)
    requires from <= i && RutAt(line, i, j)
    requires forall p: nat, q: nat :: from <= p < i ==> !RutAt(line, p, q)
    ensures SearchFrom(line, from) == MatchAt(line, i)
    decreases i - from
  {
    if from < i {
      MatchAtNone(line, from);
      SearchFromStep(line, from);
      SearchFromLeftmost(line, from + 1, i, j);
    } else {
      MatchAtSome(line, i, j);
      SearchFromHere(line, i);
    }
  }

  /** `search` finds nothing exactly when no word-bounded RUT-shaped token occurs in the line. */
  lemma SearchLineNone(line: string)
    ensures SearchLine(line).None? <==> forall p: nat, q: nat :: !RutAt(line, p, q)
  {
    SearchFromNone(line, 0);
  }

  /**
    `search` returns what the matcher finds at the leftmost start of a
    word-bounded RUT-shaped token: by `MatchAtLongest`, the longest one there.
   */
  lemma SearchLineLeftmost(line: string, i: nat, j: nat)
    requires RutAt(line, i, j)
    requires forall p: nat, q: nat :: p < i ==> !RutAt(line, p, q)
    ensures SearchLine(line) == MatchAt(line, i)
  {
    SearchFromLeftmost(line, 0, i, j);
  }

  /** `t` is a word-bounded RUT-shaped token of `line` starting at `p`. */
  predicate TokenAt(line: string, p: nat, t: string) {
    p + |t| <= |line| && t == line[p..p + |t|] && RutAt(line, p, p + |t|)
  }

  /** No line holds a word-bounded RUT-shaped token. */
  ghost predicate NoRutIn(lines: seq<string>) {
    forall n, p: nat, q: nat :: 0 <= n < |lines| ==> !RutAt(lines[n], p, q)
  }

  /** `find_rut_in_text` returns None exactly when no line holds a word-bounded RUT-shaped token. */
  lemma {:induction false} FindNoneIff(lines: seq<string>)
    ensures FindRutInText(lines).None? <==> NoRutIn(lines)
  {
    if |lines| > 0 {
      SearchLineNone(lines[0]);
      FindNoneIff(lines[1..]);
      assert forall n :: 1 <= n < |lines| ==> lines[n] == lines[1..][n - 1];
    }
  }

  /** A line without a match passes the search on to the next line. */
  lemma FindStep(lines: seq<string>)
    requires |lines| > 0 && SearchLine(lines[0]).None?
    ensures FindRutInText(lines) == FindRutInText(lines[1..])
  {
  }

  /** A line with a match ends the search. */
  lemma FindHere(lines: seq<string>)
    requires |lines| > 0 && SearchLine(lines[0]).Some?
    ensures FindRutInText(lines) == SearchLine(lines[0])
  {
  }

  /** When line `n` is the first with a match, the result is that line's match. */
  lemma {:induction false} FindFirstMatch(lines: seq<string>, n: nat)
    requires n < |lines| && SearchLine(lines[n]).Some?
    requires forall m :: 0 <= m < n ==> SearchLine(lines[m]).None?
    ensures FindRutInText(lines) == SearchLine(lines[n])
  {
    if n > 0 {
      var tail := lines[1..];
      FindStep(lines);
      assert tail[n - 1] == lines[n];
      forall m | 0 <= m < n - 1
        ensures SearchLine(tail[m]).None?
      {
        assert tail[m] == lines[m + 1];
      }
      FindFirstMatch(tail, n - 1);
    } else {
      FindHere(lines);
    }
  }

  /**
    When line `n` is the first with a match, the result is that line's
    match, and the lines after it are never consulted.
   */
  lemma FindStopsAtFirstMatch(lines: seq<string>, n: nat, rest: seq<string>)
    requires n < |lines| && SearchLine(lines[n]).Some?
    requires forall m :: 0 <= m < n ==> SearchLine(lines[m]).None?
    ensures FindRutInText(lines) == SearchLine(lines[n])
    ensures FindRutInText(lines[..n + 1] + rest) == SearchLine(lines[n])
  {
    FindFirstMatch(lines, n);
    var cut := lines[..n + 1] + rest;
    assert forall m :: 0 <= m <= n ==> cut[m] == lines[m];
    FindFirstMatch(cut, n);
  }

  /**
    A returned token is a word-bounded RUT-shaped token of one of the lines,
    so it has 8 to 12 characters.
   */
  lemma {:induction false} FindResultIsRut(lines: seq<string>)
    requires FindRutInText(lines).Some?
    ensures 8 <= |FindRutInText(lines).value| <= 12
    ensures IsRutShape(FindRutInText(lines).value)
    ensures exists n: nat, p: nat :: n < |lines| && TokenAt(lines[n], p, FindRutInText(lines).value)
  {
    var t := FindRutInText(lines).value;
    if SearchLine(lines[0]).Some? {
      var i := SearchLineToken(lines[0]);
      RutShapeBounds(t);
    } else {
      FindResultIsRut(lines[1..]);
      var n: nat, p: nat :| n < |lines[1..]| && TokenAt(lines[1..][n], p, t);
      assert TokenAt(lines[n + 1], p, t);
    }
  }

  /** What `search` returns is a word-bounded RUT-shaped token of the line, at its leftmost start. */
  lemma SearchLineToken(line: string) returns (i: nat)
    requires SearchLine(line).Some?
    ensures TokenAt(line, i, SearchLine(line).value)
    ensures forall p: nat, q: nat :: p < i ==> !RutAt(line, p, q)
  {
    assert exists p: nat, q: nat :: RutAt(line, p, q) by {
      SearchLineNone(line);
    }
    var p: nat, q: nat :| RutAt(line, p, q);
    i := LeftmostStart(line, p, q);
    var j: nat :| RutAt(line, i, j);
    SearchLineLeftmost(line, i, j);
    MatchAtSome(line, i, j);
    MatchAtToken(line, i);
  }

  /** The least start of a word-bounded RUT-shaped token, given one at `p`. */
  lemma {:induction false} LeftmostStart(line: string, p: nat, q: nat) returns (i: nat)
    requires RutAt(line, p, q)
    ensures i <= p && exists j: nat :: RutAt(line, i, j)
    ensures forall p': nat, q': nat :: p' < i ==> !RutAt(line, p', q')
    decreases p
  {
    if forall p': nat, q': nat :: p' < p ==> !RutAt(line, p', q') {
      i := p;
    } else {
      var p': nat, q': nat :| p' < p && RutAt(line, p', q');
      i := LeftmostStart(line, p', q');
    }
  }
}

=== FILE: session_token.dfy ===
/**
  The string part of `get_user_from_session` in main.py: the ID token is
  split on `.` into header, payload and signature, and the payload is padded
  with `=` for base64 decoding. The decoding itself is not modelled.
 */
module SessionToken {
  import opened Options
  import opened Strings

  /** `'=' * n`. */
  function Pad(n: nat): (r: string)
    ensures |r| == n && forall k :: 0 <= k < n ==> r[k] == '='
  {
    if n == 0 then "" else Pad(n - 1) + "="
  }

  /**
    The payload segment, padded, or None where the source returns None: no
    token in the session, an empty token, or a token that does not split
    into exactly three parts (the tuple unpacking raises and is caught).
    Python's `-len(p) % 4` takes the sign of the divisor; so does Dafny's
    `%` for a positive divisor.
   */
  function PaddedPayload(idToken: Option<string>): (r: Option<string>)
    ensures idToken.None? || idToken == Some("") ==> r.None?
    ensures idToken.Some? ==> (r.Some? <==> Count(idToken.value, '.') == 2)
    ensures r.Some? ==> |Split(idToken.value, '.')| == 3
    ensures r.Some? ==>
      var p := Split(idToken.value, '.')[1];
      && |p| <= |r.value| < |p| + 4
      && |r.value| % 4 == 0
      && r.value[..|p|] == p
      && forall k :: |p| <= k < |r.value| ==> r.value[k] == '='
  {
    match idToken
    case None => None
    case Some(token) =>
      if token == "" then None
      else
        JoinSplit(token, '.');
        var parts := Split(token, '.');
        if |parts| != 3 then None
        else
          var payload := parts[1];
          var padded := payload + Pad((-|payload|) % 4);
          assert padded[..|payload|] == payload;
          Some(padded)
  }

  /**
    For a token built from three dot-free segments, the result is the middle
    segment followed by the fewest `=` that make its length a multiple of 4.
   */
  lemma PaddedPayloadOfSegments(header: string, payload: string, signature: string)
    requires '.' !in header && '.' !in payload && '.' !in signature
    ensures var r := PaddedPayload(Some(header + "." + payload + "." + signature));
      && r.Some? && |payload| <= |r.value| && r.value[..|payload|] == payload
      && |r.value| % 4 == 0
      && forall m: nat :: m % 4 == 0 && m >= |payload| ==> m >= |r.value|
  {
    var parts := [header, payload, signature];
    assert Join(parts[2..], '.') == signature;
    assert Join(parts[1..], '.') == payload + "." + signature;
    assert Join(parts, '.') == header + "." + payload + "." + signature;
    SplitJoin(parts, '.');
  }
}

=== FILE: sorted_strings.dfy ===
/**
  `sorted(set(...))` over strings: sequences in strictly ascending
  code-point order, built by inserting one item at a time.
 */
module SortedStrings {
  import opened Strings

  predicate StrictlySorted(xs: seq<string>) {
    forall i, j :: 0 <= i < j < |xs| ==> LexLess(xs[i], xs[j])
  }

  function Elems(xs: seq<string>): set<string> {
    set x | x in xs
  }

  /** An item below everything in a strictly sorted list can go in front of it. */
  lemma SortedCons(y: string, ys: seq<string>)
    requires StrictlySorted(ys)
    requires forall z :: z in ys ==> LexLess(y, z)
    ensures StrictlySorted([y] + ys)
  {
    forall i, j | 0 <= i < j < |[y] + ys| ensures LexLess(([y] + ys)[i], ([y] + ys)[j]) {
      assert ([y] + ys)[j] == ys[j - 1];
      if i > 0 { assert ([y] + ys)[i] == ys[i - 1]; }
    }
  }

  /** The tail of a strictly sorted list is strictly sorted and lies above its head. */
  lemma SortedTail(xs: seq<string>)
    requires StrictlySorted(xs) && |xs| > 0
    ensures StrictlySorted(xs[1..])
    ensures forall z :: z in xs[1..] ==> LexLess(xs[0], z)
  {
    forall z | z in xs[1..] ensures LexLess(xs[0], z) {
      var k :| 0 <= k < |xs[1..]| && xs[1..][k] == z;
      assert xs[k + 1] == z;
    }
  }

  /** An item below the head of a strictly sorted list goes in front of it. */
  lemma InsertFront(xs: seq<string>, x: string)
    requires StrictlySorted(xs) && |xs| > 0 && LexLess(x, xs[0])
    ensures StrictlySorted([x] + xs)
    ensures Elems([x] + xs) == Elems(xs) + {x}
  {
    forall z | z in xs ensures LexLess(x, z) {
      if z != xs[0] {
        var k :| 0 <= k < |xs| && xs[k] == z;
        LexLessTransitive(x, xs[0], z);
      }
    }
    SortedCons(x, xs);
  }

  /** An item above the head of a strictly sorted list goes into its tail. */
  lemma InsertBehind(xs: seq<string>, x: string, rest: seq<string>)
    requires StrictlySorted(xs) && |xs| > 0 && LexLess(xs[0], x)
    requires StrictlySorted(rest) && Elems(rest) == Elems(xs[1..]) + {x}
    ensures StrictlySorted([xs[0]] + rest)
    ensures Elems([xs[0]] + rest) == Elems(xs) + {x}
  {
    SortedTail(xs);
    forall z | z in rest ensures LexLess(xs[0], z) {
      assert z in Elems(rest);
    }
    SortedCons(xs[0], rest);
    assert xs == [xs[0]] + xs[1..];
  }

  /** Inserts `x` at its place in `xs`, unless it is already there. */
  function Insert(xs: seq<string>, x: string): (r: seq<string>)
    requires StrictlySorted(xs)
    ensures StrictlySorted(r)
    ensures Elems(r) == Elems(xs) + {x}
  {
    if |xs| == 0 then [x]
    else if x == xs[0] then xs
    else if LexLess(x, xs[0]) then
      InsertFront(xs, x);
      [x] + xs
    else
      LexLessTotal(x, xs[0]);
      SortedTail(xs);
      var rest := Insert(xs[1..], x);
      InsertBehind(xs, x, rest);
      [xs[0]] + rest
  }

  /** `sorted(set(items))`: the distinct items in ascending order. */
  function SortedSet(items: seq<string>): (r: seq<string>)
    ensures StrictlySorted(r)
    ensures Elems(r) == Elems(items)
  {
    if |items| == 0 then []
    else
      var last := |items| - 1;
      assert items == items[..last] + [items[last]];
      Insert(SortedSet(items[..last]), items[last])
  }

  lemma HeadInElems(xs: seq<string>)
    ensures |xs| > 0 ==> xs[0] in Elems(xs)
  {
  }

  /** A strictly sorted sequence holds no item twice. */
  lemma StrictlySortedDistinct(xs: seq<string>)
    requires StrictlySorted(xs)
    ensures forall i, j :: 0 <= i < j < |xs| ==> xs[i] != xs[j]
  {
    forall i, j | 0 <= i < j < |xs| ensures xs[i] != xs[j] {
      LexLessIrreflexive(xs[i]);
    }
  }

  /**
    A strictly sorted sequence is determined by its set of items, so it is
    the one `sorted(set(...))` produces.
   */
  lemma {:induction false} SortedUnique(a: seq<string>, b: seq<string>)
    requires StrictlySorted(a) && StrictlySorted(b)
    requires Elems(a) == Elems(b)
    ensures a == b
  {
    if |a| > 0 {
      assert a[0] in Elems(b);
      assert |b| > 0;
      assert b[0] in Elems(a);
      if a[0] != b[0] {
        var i :| 0 <= i < |a| && a[i] == b[0];
        var j :| 0 <= j < |b| && b[j] == a[0];
        LexLessAsymmetric(a[0], b[0]);
        assert false;
      }
      StrictlySortedDistinct(a);
      StrictlySortedDistinct(b);
      assert Elems(a[1..]) == Elems(a) - {a[0]} by {
        assert a == [a[0]] + a[1..];
      }
      assert Elems(b[1..]) == Elems(b) - {b[0]} by {
        assert b == [b[0]] + b[1..];
      }
      SortedUnique(a[1..], b[1..]);
      assert a == [a[0]] + a[1..] && b == [b[0]] + b[1..];
    } else {
      HeadInElems(b);
    }
  }

  /** `sorted(set(...))` depends only on the set of items, not on their order or repetition. */
  lemma SortedSetCanonical(a: seq<string>, b: seq<string>)
    requires Elems(a) == Elems(b)
    ensures SortedSet(a) == SortedSet(b)
  {
    SortedUnique(SortedSet(a), SortedSet(b));
  }

  /** A list that is already strictly sorted is its own `sorted(set(...))`. */
  lemma SortedSetOfSorted(xs: seq<string>)
    requires StrictlySorted(xs)
    ensures SortedSet(xs) == xs
  {
    SortedUnique(SortedSet(xs), xs);
  }

  /** Adding items a sorted list already holds does not change its `sorted(set(...))`. */
  lemma SortedSetAbsorbs(xs: seq<string>, zs: seq<string>)
    requires StrictlySorted(xs) && Elems(zs) <= Elems(xs)
    ensures SortedSet(xs + zs) == xs
  {
    assert Elems(xs + zs) == Elems(xs) + Elems(zs);
    SortedSetCanonical(xs + zs, xs);
    SortedSetOfSorted(xs);
  }

  /** Two items in ascending order are already `sorted(set(...))`. */
  lemma SortedPair(x: string, y: string)
    requires LexLess(x, y)
    ensures SortedSet([x, y]) == [x, y]
  {
    SortedSetOfSorted([x, y]);
  }
}

=== FILE: strings.dfy ===
/**
  The few Python `str` operations the core relies on, over `seq<char>`:
  `split` on one separator character, `join`, `strip` with Python's notion
  of whitespace, and the code-point lexicographic order used by `sorted`.
 */
module Strings {

  /** Number of occurrences of `c` in `s`. */
  function Count(s: string, c: char): nat {
    if |s| == 0 then 0 else (if s[0] == c then 1 else 0) + Count(s[1..], c)
  }

  lemma {:induction false} CountConcat(a: string, b: string, c: char)
    ensures Count(a + b, c) == Count(a, c) + Count(b, c)
  {
    if |a| > 0 {
      assert (a + b)[1..] == a[1..] + b && (a + b)[0] == a[0];
      CountConcat(a[1..], b, c);
    } else {
      assert a + b == b;
    }
  }

  /** Python's `sep.join(parts)` for a one-character separator. */
  function Join(parts: seq<string>, sep: char): string {
    if |parts| == 0 then ""
    else if |parts| == 1 then parts[0]
    else parts[0] + [sep] + Join(parts[1..], sep)
  }

  /**
    Python's `s.split(sep)` for a one-character separator: the pieces between
    consecutive separators, so never an empty list (`"".split(",") == [""]`).
   */
  function Split(s: string, sep: char): (parts: seq<string>)
    ensures |parts| >= 1
    ensures forall i :: 0 <= i < |parts| ==> sep !in parts[i]
  {
    if |s| == 0 then [""]
    else
      var rest := Split(s[1..], sep);
      if s[0] == sep then
        assert ([""] + rest)[1..] == rest;
        [""] + rest
      else
        var parts := [[s[0]] + rest[0]] + rest[1..];
        assert parts[1..] == rest[1..];
        parts
  }

  /**
    One piece more than there are separators, and joining the pieces with
    the separator gives the string back.
   */
  lemma {:induction false} JoinSplit(s: string, sep: char)
    ensures |Split(s, sep)| == Count(s, sep) + 1
    ensures Join(Split(s, sep), sep) == s
  {
    if |s| > 0 {
      JoinSplit(s[1..], sep);
      var rest := Split(s[1..], sep);
      if s[0] == sep {
        assert ([""] + rest)[1..] == rest;
      } else {
        var parts := [[s[0]] + rest[0]] + rest[1..];
        assert parts[1..] == rest[1..];
        if |rest| == 1 {
          assert s == [s[0]] + s[1..];
        } else {
          assert s == [s[0]] + s[1..];
        }
      }
    }
  }

  /** A leading separator opens an empty first piece. */
  lemma SplitSep(s: string, sep: char)
    ensures Split([sep] + s, sep) == [""] + Split(s, sep)
  {
    assert ([sep] + s)[1..] == s;
  }

  /** A leading non-separator joins the first piece. */
  lemma SplitChar(c: char, s: string, sep: char)
    requires c != sep
    ensures Split([c] + s, sep) == [[c] + Split(s, sep)[0]] + Split(s, sep)[1..]
  {
    assert ([c] + s)[1..] == s;
  }

  /** Split is the inverse of Join on lists of pieces that do not contain the separator. */
  lemma {:induction false} SplitJoin(parts: seq<string>, sep: char)
    requires |parts| >= 1
    requires forall i :: 0 <= i < |parts| ==> sep !in parts[i]
    ensures Split(Join(parts, sep), sep) == parts
    decreases |parts|, |parts[0]|
  {
    if |parts[0]| > 0 {
      var p := parts[0];
      var tail := [p[1..]] + parts[1..];
      assert tail[1..] == parts[1..];
      SplitJoin(tail, sep);
      assert Join(parts, sep) == [p[0]] + Join(tail, sep);
      SplitChar(p[0], Join(tail, sep), sep);
      assert p == [p[0]] + p[1..];
      assert parts == [p] + parts[1..];
    } else if |parts| > 1 {
      SplitJoin(parts[1..], sep);
      assert Join(parts, sep) == [sep] + Join(parts[1..], sep);
      SplitSep(Join(parts[1..], sep), sep);
      assert parts == [""] + parts[1..];
    }
  }

  /**
    Python's `str.isspace()` for one character: the characters `str.strip()`
    removes when called without arguments.
   */
  predicate IsSpace(c: char) {
    var n := c as int;
    || (0x09 <= n <= 0x0D)
    || (0x1C <= n <= 0x20)
    || n == 0x85 || n == 0xA0 || n == 0x1680
    || (0x2000 <= n <= 0x200A)
    || n == 0x2028 || n == 0x2029 || n == 0x202F || n == 0x205F || n == 0x3000
  }

  predicate AllSpace(s: string) {
    forall i :: 0 <= i < |s| ==> IsSpace(s[i])
  }

  /** Neither end of `s` is whitespace: what `strip()` guarantees of its result. */
  predicate IsStripped(s: string) {
    |s| == 0 || (!IsSpace(s[0]) && !IsSpace(s[|s| - 1]))
  }

  /** Python's `s.lstrip()`. */
  function TrimStart(s: string): (r: string)
    ensures |r| <= |s| && r == s[|s| - |r|..]
    ensures AllSpace(s[..|s| - |r|])
    ensures |r| == 0 || !IsSpace(r[0])
  {
    if |s| > 0 && IsSpace(s[0]) then TrimStart(s[1..]) else s
  }

  /** Python's `s.rstrip()`. */
  function TrimEnd(s: string): (r: string)
    ensures |r| <= |s| && r == s[..|r|]
    ensures AllSpace(s[|r|..])
    ensures |r| == 0 || !IsSpace(r[|r| - 1])
  {
    if |s| > 0 && IsSpace(s[|s| - 1]) then TrimEnd(s[..|s| - 1]) else s
  }

  /** Number of whitespace characters `strip()` removes from the front of `s`. */
  function StripOffset(s: string): nat {
    |s| - |TrimStart(s)|
  }

  /** Trimming both ends leaves a string without surrounding whitespace unchanged. */
  lemma TrimBothStripped(s: string)
    ensures IsStripped(s) ==> TrimEnd(TrimStart(s)) == s
  {
    if IsStripped(s) && |s| > 0 {
      assert TrimStart(s) == s;
    }
  }

  /**
    Python's `s.strip()`: leading whitespace removed, then trailing
    whitespace.
   */
  function Strip(s: string): (r: string)
    ensures IsStripped(r)
    ensures IsStripped(s) ==> r == s
  {
    var t := TrimStart(s);
    var r := TrimEnd(t);
    assert IsStripped(r) by {
      if |r| > 0 { assert r[0] == t[0]; }
    }
    TrimBothStripped(s);
    r
  }

  /**
    The result of `strip()` is the infix of `s` that starts after its leading
    whitespace and ends before its trailing whitespace.
   */
  lemma StripSlice(s: string)
    ensures StripOffset(s) + |Strip(s)| <= |s|
    ensures Strip(s) == s[StripOffset(s)..StripOffset(s) + |Strip(s)|]
  {
    var t := TrimStart(s);
    var i := |s| - |t|;
    assert t == s[i..];
  }

  /** What `strip()` removes on either side is whitespace. */
  lemma StripAround(s: string)
    ensures StripOffset(s) + |Strip(s)| <= |s|
    ensures AllSpace(s[..StripOffset(s)]) && AllSpace(s[StripOffset(s) + |Strip(s)|..])
  {
    var t := TrimStart(s);
    var r := TrimEnd(t);
    var i := |s| - |t|;
    assert s[i + |r|..] == t[|r|..] by {
      assert t == s[i..];
    }
  }

  /** A whitespace-only string strips to "", and only those do. */
  lemma StripEmptyIffAllSpace(s: string)
    ensures Strip(s) == "" <==> AllSpace(s)
  {
    var i := StripOffset(s);
    var r := Strip(s);
    StripSlice(s);
    StripAround(s);
    if r == "" {
      assert s[..i] == s;
    } else {
      assert r[0] == s[i];
    }
  }

  /** Code-point lexicographic order on strings: Python's `<` on `str`, used by `sorted`. */
  predicate LexLess(a: string, b: string) {
    if |a| == 0 then |b| > 0
    else if |b| == 0 then false
    else if a[0] != b[0] then a[0] < b[0]
    else LexLess(a[1..], b[1..])
  }

  lemma {:induction false} LexLessIrreflexive(a: string)
    ensures !LexLess(a, a)
  {
    if |a| > 0 { LexLessIrreflexive(a[1..]); }
  }

  lemma {:induction false} LexLessAsymmetric(a: string, b: string)
    ensures LexLess(a, b) ==> !LexLess(b, a)
  {
    if |a| > 0 && |b| > 0 && a[0] == b[0] { LexLessAsymmetric(a[1..], b[1..]); }
  }

  lemma {:induction false} LexLessTransitive(a: string, b: string, c: string)
    requires LexLess(a, b) && LexLess(b, c)
    ensures LexLess(a, c)
  {
    if |a| > 0 && |b| > 0 && |c| > 0 && a[0] == b[0] && b[0] == c[0] {
      LexLessTransitive(a[1..], b[1..], c[1..]);
    }
  }

  lemma {:induction false} LexLessTotal(a: string, b: string)
    ensures a == b || LexLess(a, b) || LexLess(b, a)
  {
    if |a| > 0 && |b| > 0 && a[0] == b[0] {
      LexLessTotal(a[1..], b[1..]);
      if a[1..] == b[1..] {
        assert a == [a[0]] + a[1..] && b == [b[0]] + b[1..];
      }
    }
  }
}

=== FILE: unit_merge.dfy ===
/**
  The comma-separated attribute merge of `create_or_update_cognito_user`:
  when a user already exists, the units (`custom:Unidad`) and the unit types
  (`custom:TipoUnidad`) already stored are each combined with the new ones by
  splitting on ",", stripping, dropping empty items, taking the set union,
  sorting and joining with ",".
 */
module UnitMerge {
  import opened Options
  import opened Strings
  import opened SortedStrings

  /** An entry of a merged list: non-empty, without surrounding whitespace, without ",". */
  predicate IsItem(x: string) {
    x != "" && IsStripped(x) && ',' !in x
  }

  /** A non-empty, stripped piece in front of non-empty, stripped pieces. */
  lemma StrippedCons(u: string, rest: seq<string>)
    requires u != "" && IsStripped(u)
    requires forall i :: 0 <= i < |rest| ==> rest[i] != "" && IsStripped(rest[i])
    ensures forall i :: 0 <= i < |[u] + rest| ==> ([u] + rest)[i] != "" && IsStripped(([u] + rest)[i])
  {
    forall i | 0 < i < |[u] + rest| ensures ([u] + rest)[i] == rest[i - 1] {}
  }

  /** `[u.strip() for u in pieces if u.strip()]` */
  function KeepStripped(pieces: seq<string>): (r: seq<string>)
    ensures forall i :: 0 <= i < |r| ==> r[i] != "" && IsStripped(r[i])
  {
    if |pieces| == 0 then []
    else
      var u := Strip(pieces[0]);
      var rest := KeepStripped(pieces[1..]);
      if u != "" then
        StrippedCons(u, rest);
        [u] + rest
      else rest
  }

  /** `{u.strip() for u in pieces if u.strip()}`: the reference set of items. */
  function StrippedSet(pieces: seq<string>): set<string> {
    set p | p in pieces && Strip(p) != "" :: Strip(p)
  }

  /** The filtered list holds exactly the items of the set comprehension. */
  lemma {:induction false} KeepStrippedElems(pieces: seq<string>)
    ensures Elems(KeepStripped(pieces)) == StrippedSet(pieces)
  {
    if |pieces| > 0 {
      KeepStrippedElems(pieces[1..]);
      assert pieces == [pieces[0]] + pieces[1..];
      assert StrippedSet(pieces) == StrippedSet([pieces[0]]) + StrippedSet(pieces[1..]);
    }
  }

  /** Stripping only removes characters, so it cannot introduce a ",". */
  lemma {:induction false} StripNoComma(p: string)
    ensures ',' in Strip(p) ==> ',' in p
  {
    var u := Strip(p);
    StripSlice(p);
    if ',' in u {
      var k :| 0 <= k < |u| && u[k] == ',';
      assert p[StripOffset(p) + k] == ',';
    }
  }

  /** Pieces of a split on "," contain no ",", so what survives the filter is an item. */
  lemma {:induction false} KeepStrippedNoComma(pieces: seq<string>)
    requires forall i :: 0 <= i < |pieces| ==> ',' !in pieces[i]
    ensures forall i :: 0 <= i < |KeepStripped(pieces)| ==> IsItem(KeepStripped(pieces)[i])
  {
    if |pieces| > 0 {
      var u := Strip(pieces[0]);
      var rest := KeepStripped(pieces[1..]);
      KeepStrippedNoComma(pieces[1..]);
      if u != "" {
        assert IsItem(u) by {
          assert ',' !in pieces[0];
          StripNoComma(pieces[0]);
        }
        assert KeepStripped(pieces) == [u] + rest;
        forall i | 0 <= i < |[u] + rest| ensures IsItem(([u] + rest)[i]) {
          if i > 0 { assert ([u] + rest)[i] == rest[i - 1]; }
        }
      }
    }
  }

  /** The items of one attribute value: `u.strip() for u in s.split(',') if u.strip()`. */
  function CleanItems(s: string): (r: seq<string>)
    ensures forall i :: 0 <= i < |r| ==> IsItem(r[i])
  {
    KeepStrippedNoComma(Split(s, ','));
    KeepStripped(Split(s, ','))
  }

  /** The set the source builds from one attribute value, as a set comprehension. */
  function ItemSet(s: string): set<string> {
    StrippedSet(Split(s, ','))
  }

  lemma {:induction false} CleanItemsElems(s: string)
    ensures Elems(CleanItems(s)) == ItemSet(s)
  {
    KeepStrippedElems(Split(s, ','));
  }

  /** `sorted(list(set(existing) | set(incoming)))` on the items of two attribute values. */
  function MergedItems(existing: string, incoming: string): (r: seq<string>)
    ensures StrictlySorted(r)
    ensures Elems(r) == Elems(CleanItems(existing)) + Elems(CleanItems(incoming))
    ensures forall i :: 0 <= i < |r| ==> IsItem(r[i])
  {
    var a := CleanItems(existing);
    var b := CleanItems(incoming);
    ElemsConcat(a, b);
    var r := SortedSet(a + b);
    AllItemsConcat(a, b);
    ItemsByElems(a + b, r);
    r
  }

  lemma {:induction false} AllItemsConcat(a: seq<string>, b: seq<string>)
    requires forall i :: 0 <= i < |a| ==> IsItem(a[i])
    requires forall i :: 0 <= i < |b| ==> IsItem(b[i])
    ensures forall i :: 0 <= i < |a + b| ==> IsItem((a + b)[i])
  {
    forall i | 0 <= i < |a + b| ensures IsItem((a + b)[i]) {
      if i < |a| { assert (a + b)[i] == a[i]; } else { assert (a + b)[i] == b[i - |a|]; }
    }
  }

  /** Every entry of `ys` is one of the items of `xs`, so it is an item too. */
  lemma {:induction false} ItemsByElems(xs: seq<string>, ys: seq<string>)
    requires forall i :: 0 <= i < |xs| ==> IsItem(xs[i])
    requires Elems(ys) <= Elems(xs)
    ensures forall i :: 0 <= i < |ys| ==> IsItem(ys[i])
  {
    forall i | 0 <= i < |ys| ensures IsItem(ys[i]) {
      assert ys[i] in Elems(xs);
    }
  }

  lemma {:induction false} ElemsConcat(a: seq<string>, b: seq<string>)
    ensures Elems(a + b) == Elems(a) + Elems(b)
  {
  }

  /** The merged items are the union of the two reference sets. */
  lemma {:induction false} MergedItemsElems(existing: string, incoming: string)
    ensures Elems(MergedItems(existing, incoming)) == ItemSet(existing) + ItemSet(incoming)
  {
    CleanItemsElems(existing);
    CleanItemsElems(incoming);
  }

  /** The stored string: `",".join(...)` of the merged items. */
  function MergeList(existing: string, incoming: string): string {
    Join(MergedItems(existing, incoming), ',')
  }

  /** Re-reading a list of items that are already clean gives the list back. */
  lemma {:induction false} KeepStrippedItems(xs: seq<string>)
    requires forall i :: 0 <= i < |xs| ==> IsItem(xs[i])
    ensures KeepStripped(xs) == xs
  {
    if |xs| > 0 {
      KeepStrippedItems(xs[1..]);
      assert xs == [xs[0]] + xs[1..];
    }
  }

  /** Joining clean items with "," and reading the result back gives the items. */
  lemma {:induction false} ResplitItems(xs: seq<string>)
    requires forall i :: 0 <= i < |xs| ==> IsItem(xs[i])
    ensures |xs| > 0 ==> Split(Join(xs, ','), ',') == xs
    ensures CleanItems(Join(xs, ',')) == xs
  {
    if |xs| == 0 {
      assert Split("", ',') == [""];
      assert Strip("") == "";
    } else {
      assert forall i :: 0 <= i < |xs| ==> ',' !in xs[i];
      SplitJoin(xs, ',');
      KeepStrippedItems(xs);
    }
  }

  /**
    Splitting the stored string again gives exactly the merged items: no item
    is lost, split in two or changed by a later read.
   */
  lemma {:induction false} MergeListResplit(existing: string, incoming: string)
    ensures CleanItems(MergeList(existing, incoming)) == MergedItems(existing, incoming)
    ensures MergedItems(existing, incoming) != [] ==>
              Split(MergeList(existing, incoming), ',') == MergedItems(existing, incoming)
  {
    ResplitItems(MergedItems(existing, incoming));
  }

  /** The items read back from the stored string are the merged items. */
  lemma {:induction false} MergeListClean(a: string, b: string)
    ensures CleanItems(MergeList(a, b)) == MergedItems(a, b)
  {
    MergeListResplit(a, b);
  }

  /** The merge does not depend on which value is the stored one. */
  lemma {:induction false} MergeListCommutative(a: string, b: string)
    ensures MergedItems(a, b) == MergedItems(b, a)
    ensures MergeList(a, b) == MergeList(b, a)
  {
    var x := CleanItems(a);
    var y := CleanItems(b);
    ElemsConcat(x, y);
    ElemsConcat(y, x);
    SortedSetCanonical(x + y, y + x);
  }

  /** The merge seen through the items of its two arguments. */
  lemma {:induction false} MergedItemsOf(existing: string, incoming: string, xs: seq<string>, ys: seq<string>)
    requires CleanItems(existing) == xs && CleanItems(incoming) == ys
    ensures MergedItems(existing, incoming) == SortedSet(xs + ys)
  {
  }

  /** Merging a result again starts from the merged items themselves. */
  lemma {:induction false} RemergeItems(a: string, b: string, c: string)
    ensures MergedItems(MergeList(a, b), c) == SortedSet(MergedItems(a, b) + CleanItems(c))
  {
    MergeListClean(a, b);
    MergedItemsOf(MergeList(a, b), c, MergedItems(a, b), CleanItems(c));
  }

  /** Merging a result with a value whose items it already holds leaves it unchanged. */
  lemma {:induction false} MergeAbsorbs(a: string, b: string, c: string)
    requires Elems(CleanItems(c)) <= Elems(MergedItems(a, b))
    ensures MergeList(MergeList(a, b), c) == MergeList(a, b)
  {
    RemergeItems(a, b, c);
    SortedSetAbsorbs(MergedItems(a, b), CleanItems(c));
  }

  /**
    Merging a result again, with itself or with either of its inputs, leaves
    it unchanged: running the same upsert twice stores the same string.
   */
  lemma {:induction false} MergeListIdempotent(a: string, b: string)
    ensures var r := MergeList(a, b);
      MergeList(r, r) == r && MergeList(r, a) == r && MergeList(r, b) == r
  {
    MergeListResplit(a, b);
    MergeAbsorbs(a, b, MergeList(a, b));
    MergeAbsorbs(a, b, a);
    MergeAbsorbs(a, b, b);
  }

  /** An absent attribute, read as "", has no items. */
  lemma {:induction false} NoItems()
    ensures CleanItems("") == [] && ItemSet("") == {}
  {
    assert Split("", ',') == [""];
    assert Strip("") == "";
    CleanItemsElems("");
  }

  /** Merging into a value without items gives the sorted, deduplicated new items. */
  lemma {:induction false} MergeWithEmpty(existing: string, incoming: string)
    requires CleanItems(existing) == []
    ensures MergedItems(existing, incoming) == SortedSet(CleanItems(incoming))
  {
    var xs, ys := CleanItems(existing), CleanItems(incoming);
    MergedItemsOf(existing, incoming, xs, ys);
    assert xs + ys == ys;
  }

  /** The same, as sets of items. */
  lemma {:induction false} MergeWithEmptyElems(existing: string, incoming: string)
    requires ItemSet(existing) == {}
    ensures Elems(MergedItems(existing, incoming)) == ItemSet(incoming)
  {
    MergedItemsElems(existing, incoming);
  }

  /** A user with no stored attribute (the default "") gets the sorted, deduplicated new items. */
  lemma {:induction false} MergeWithMissing(incoming: string)
    ensures ItemSet("") == {}
    ensures MergedItems("", incoming) == SortedSet(CleanItems(incoming))
    ensures Elems(MergedItems("", incoming)) == ItemSet(incoming)
  {
    NoItems();
    MergeWithEmpty("", incoming);
    MergeWithEmptyElems("", incoming);
  }

  /** A clean item read as an attribute value is a single item. */
  lemma {:induction false} SingleItem(x: string)
    requires IsItem(x)
    ensures CleanItems(x) == [x]
  {
    ResplitItems([x]);
    assert Join([x], ',') == x;
  }

  /** Two clean items merge as the list of the two. */
  lemma {:induction false} MergeTwoCleanItems(x: string, y: string)
    requires IsItem(x) && IsItem(y)
    ensures MergedItems(x, y) == SortedSet([x, y])
  {
    SingleItem(x);
    SingleItem(y);
    assert [x] + [y] == [x, y];
    MergedItemsOf(x, y, [x], [y]);
  }

  /** Two different clean items merge into the two of them in ascending order. */
  lemma {:induction false} MergeTwoItems(x: string, y: string)
    requires IsItem(x) && IsItem(y) && LexLess(x, y)
    ensures MergedItems(x, y) == [x, y]
  {
    MergeTwoCleanItems(x, y);
    SortedPair(x, y);
  }

  /**
    Units and types are merged separately and each list is sorted on its own,
    so the unit and the type given together need not end up at the same
    position.
   */
  lemma {:induction false} PairingNotKept(unit1: string, type1: string, unit2: string, type2: string)
    requires IsItem(unit1) && IsItem(type1) && IsItem(unit2) && IsItem(type2)
    requires LexLess(unit1, unit2) && LexLess(type2, type1)
    ensures MergedItems(unit1, unit2) == [unit1, unit2]
    ensures MergedItems(type1, type2) == [type2, type1]
  {
    MergeTwoItems(unit1, unit2);
    MergeTwoItems(type2, type1);
    MergeListCommutative(type2, type1);
  }

  /**
    The units 101 (a "Depto") and B-5 (a "Bodega") are stored as "101,B-5"
    next to the types "Bodega,Depto": 101 now faces "Bodega".
   */
  lemma PairingExample()
    ensures MergedItems("101", "B-5") == ["101", "B-5"]
    ensures MergedItems("Depto", "Bodega") == ["Bodega", "Depto"]
  {
    assert IsItem("101") && IsItem("B-5") && IsItem("Bodega") && IsItem("Depto");
    assert LexLess("101", "B-5") && LexLess("Bodega", "Depto");
    PairingNotKept("101", "Depto", "B-5", "Bodega");
  }

  /** The stored string holds exactly the items of both values. */
  lemma {:induction false} MergeListItemSet(a: string, b: string)
    ensures ItemSet(MergeList(a, b)) == ItemSet(a) + ItemSet(b)
  {
    MergeListClean(a, b);
    CleanItemsElems(MergeList(a, b));
    MergedItemsElems(a, b);
  }

  /**
    The user attributes the upsert writes, each present or absent:
    `email`, `email_verified`, `custom:Nombre`, `custom:Comunidad`,
    `custom:Unidad`, `custom:Rut` and `custom:TipoUnidad`. In the attributes
    one call sends, an absent field is one the call does not send.
   */
  datatype Attributes = Attributes(
    email: Option<string>, emailVerified: Option<string>,
    nombre: Option<string>, comunidad: Option<string>,
    unidad: Option<string>, rut: Option<string>, tipoUnidad: Option<string>)

  /** One row of the bulk-load CSV file. */
  datatype UserRow = UserRow(
    email: string, nombre: string, comunidad: string,
    unidad: string, rut: string, tipoUnidad: string)

  /** `current_attributes.get(name, '')`: a stored attribute's value, or `''` when the user has none. */
  function StoredValue(x: Option<string>): string {
    if x.Some? then x.value else ""
  }

  /** The attributes a new user is created with: the row as given, units and types unmerged. */
  function CreateAttributes(row: UserRow): Attributes {
    Attributes(Some(row.email), Some("true"), Some(row.nombre), Some(row.comunidad),
               Some(row.unidad), Some(row.rut), Some(row.tipoUnidad))
  }

  /**
    The attributes an existing user is updated with: the stored units and
    types (`''` when absent) merged with the row's, the rest overwritten,
    `email_verified` not sent.
   */
  function UpdateAttributes(current: Attributes, row: UserRow): Attributes {
    Attributes(Some(row.email), None, Some(row.nombre), Some(row.comunidad),
               Some(MergeList(StoredValue(current.unidad), row.unidad)),
               Some(row.rut),
               Some(MergeList(StoredValue(current.tipoUnidad), row.tipoUnidad)))
  }

  /**
    The attributes sent for a row: creation when the user does not exist
    (`current` is None), otherwise an update against the stored attributes.
   */
  function Upsert(current: Option<Attributes>, row: UserRow): Attributes {
    match current
    case None => CreateAttributes(row)
    case Some(attrs) => UpdateAttributes(attrs, row)
  }

  function Overwrite(stored: Option<string>, sent: Option<string>): Option<string> {
    if sent.Some? then sent else stored
  }

  /** A call replaces the attributes it sends and keeps every other stored one. */
  function Apply(current: Attributes, sent: Attributes): Attributes {
    Attributes(
      Overwrite(current.email, sent.email), Overwrite(current.emailVerified, sent.emailVerified),
      Overwrite(current.nombre, sent.nombre), Overwrite(current.comunidad, sent.comunidad),
      Overwrite(current.unidad, sent.unidad), Overwrite(current.rut, sent.rut),
      Overwrite(current.tipoUnidad, sent.tipoUnidad))
  }

  /**
    After an update the user holds the row's values and the stored units and
    types together with the row's; the update does not send `email_verified`.
   */
  lemma {:induction false} UpdateResult(current: Attributes, row: UserRow)
    ensures var after := Apply(current, Upsert(Some(current), row));
      && after.email == Some(row.email) && after.nombre == Some(row.nombre)
      && after.comunidad == Some(row.comunidad) && after.rut == Some(row.rut)
      && Upsert(Some(current), row).emailVerified.None?
      && after.unidad.Some? && after.tipoUnidad.Some?
      && ItemSet(after.unidad.value) == ItemSet(StoredValue(current.unidad)) + ItemSet(row.unidad)
      && ItemSet(after.tipoUnidad.value) == ItemSet(StoredValue(current.tipoUnidad)) + ItemSet(row.tipoUnidad)
  {
    MergeListItemSet(StoredValue(current.unidad), row.unidad);
    MergeListItemSet(StoredValue(current.tipoUnidad), row.tipoUnidad);
  }

  /**
    Re-running the same row on an existing user changes nothing the second
    time: the attributes after two runs equal those after one.
   */
  lemma {:induction false} UpsertStable(current: Attributes, row: UserRow)
    ensures var once := Apply(current, Upsert(Some(current), row));
      Apply(once, Upsert(Some(once), row)) == once
  {
    MergeListIdempotent(StoredValue(current.unidad), row.unidad);
    MergeListIdempotent(StoredValue(current.tipoUnidad), row.tipoUnidad);
  }

  /**
    A user created from a row holds its units and types as given; running
    the row again stores them in their merged form, with the same items.
   */
  lemma {:induction false} CreateThenUpdate(empty: Attributes, row: UserRow)
    ensures var created := Apply(empty, Upsert(None, row));
      var after := Apply(created, Upsert(Some(created), row));
      && created.unidad == Some(row.unidad) && created.tipoUnidad == Some(row.tipoUnidad)
      && after.unidad == Some(MergeList(row.unidad, row.unidad))
      && ItemSet(after.unidad.value) == ItemSet(row.unidad)
      && ItemSet(after.tipoUnidad.value) == ItemSet(row.tipoUnidad)
  {
    var created := Apply(empty, Upsert(None, row));
    assert created == CreateAttributes(row);
    var after := Apply(created, UpdateAttributes(created, row));
    assert after.unidad == Some(MergeList(row.unidad, row.unidad));
    assert after.tipoUnidad == Some(MergeList(row.tipoUnidad, row.tipoUnidad));
    MergeListItemSet(row.unidad, row.unidad);
    MergeListItemSet(row.tipoUnidad, row.tipoUnidad);
  }
}

=== FILE: upload.dfy ===
/**
  The decision the `upload` route of main.py takes once the OCR text of the
  cropped front image is known: split it into lines, look for a RUT with
  `find_rut_in_text`, and compare the normalised token with the normalised
  `custom:Rut` claim of the logged-in user.
 */
module Upload {
  import opened Options
  import opened Strings
  import opened Rut
  import opened RutSearch

  /** The `custom:Rut` entry of the decoded ID-token claims: absent, JSON null, or a string. */
  datatype RutClaim = Missing | Null | Claimed(rut: string)

  /** `user.get('custom:Rut', 'unknown')`: the default applies only when the key is absent. */
  function ClaimValue(c: RutClaim): Option<string> {
    match c
    case Missing => Some("unknown")
    case Null => None
    case Claimed(s) => Some(s)
  }

  /** What the route reports: no RUT in the image, or the detected token and the match flag. */
  datatype Outcome = NotFound | Checked(rutFromImage: string, isMatch: bool)

  /**
    The route after OCR. A detected token is never empty, so
    `normalize_rut(rut_from_image)` is `NormalizeRut` of it.
   */
  function VerifyDocument(claim: RutClaim, ocrText: string): Outcome {
    match FindRutInText(Split(ocrText, '\n'))
    case None => NotFound
    case Some(t) => Checked(t, IsMatch(claim, t))
  }

  /** `is_match`: the normalised token against `rut_plain`, the normalised claim. */
  function IsMatch(claim: RutClaim, token: string): bool {
    NormalizeRut(token) == NormalizeClaim(ClaimValue(claim))
  }

  /** Normalising text made of RUT characters leaves only digits, `-` and `K`. */
  lemma {:induction false} NormalizedRutChars(s: string)
    requires forall i :: 0 <= i < |s| ==> IsCheckChar(s[i]) || s[i] == '.' || s[i] == '-'
    ensures forall i :: 0 <= i < |NormalizeRut(s)| ==>
      var c := NormalizeRut(s)[i];
      IsDigit(c) || c == '-' || c == 'K'
  {
    if |s| > 0 {
      NormalizedRutChars(s[1..]);
    }
  }

  /** A normalised RUT token is non-empty and contains no letter other than `K`. */
  lemma NormalizedTokenFacts(t: string)
    requires IsRutShape(t)
    ensures |NormalizeRut(t)| > 0
    ensures forall i :: 0 <= i < |NormalizeRut(t)| ==> NormalizeRut(t)[i] != 'U'
  {
    RutShapeBounds(t);
    NormalizedRutChars(t);
    NormalizeConcat(t[..|t| - 1], t[|t| - 1..]);
    assert t[..|t| - 1] + t[|t| - 1..] == t;
  }

  /** The outcome is NotFound exactly when no OCR line holds a word-bounded RUT-shaped token. */
  lemma NotFoundIff(claim: RutClaim, ocrText: string)
    ensures VerifyDocument(claim, ocrText).NotFound? <==> NoRutIn(Split(ocrText, '\n'))
  {
    FindNoneIff(Split(ocrText, '\n'));
  }

  /** A reported token is a word-bounded RUT-shaped token of one of the OCR lines. */
  lemma ReportedTokenIsRut(claim: RutClaim, ocrText: string)
    requires VerifyDocument(claim, ocrText).Checked?
    ensures var t := VerifyDocument(claim, ocrText).rutFromImage;
      && IsRutShape(t) && 8 <= |t| <= 12
      && exists n: nat, p: nat :: n < |Split(ocrText, '\n')| && TokenAt(Split(ocrText, '\n')[n], p, t)
  {
    FindResultIsRut(Split(ocrText, '\n'));
  }

  /**
    For a RUT-shaped token, `is_match` holds exactly when a RUT was claimed
    that equals the token once `.` is removed and letters are uppercased. A
    missing claim (compared as "unknown") and a null claim (compared as "")
    never match.
   */
  lemma IsMatchIff(claim: RutClaim, t: string)
    requires IsRutShape(t)
    ensures IsMatch(claim, t) <==> claim.Claimed? && NormalizeRut(claim.rut) == NormalizeRut(t)
  {
    NormalizedTokenFacts(t);
    NormalFormMatch(claim, NormalizeRut(t));
  }

  /**
    A non-empty normal form without `U` equals the normalised claim value
    only for a claimed RUT: "unknown" normalises to "UNKNOWN" and null to "".
   */
  lemma NormalFormMatch(claim: RutClaim, n: string)
    requires |n| > 0
    requires forall i :: 0 <= i < |n| ==> n[i] != 'U'
    ensures n == NormalizeClaim(ClaimValue(claim)) <==> claim.Claimed? && NormalizeRut(claim.rut) == n
  {
    match claim
    case Missing =>
      assert NormalizeClaim(ClaimValue(claim))[0] == 'U';
    case Null =>
    case Claimed(r) =>
  }

  /** The same for the flag the route reports. */
  lemma MatchIff(claim: RutClaim, ocrText: string)
    requires VerifyDocument(claim, ocrText).Checked?
    ensures var o := VerifyDocument(claim, ocrText);
      o.isMatch <==> claim.Claimed? && NormalizeRut(claim.rut) == NormalizeRut(o.rutFromImage)
  {
    ReportedTokenIsRut(claim, ocrText);
    IsMatchIff(claim, VerifyDocument(claim, ocrText).rutFromImage);
  }

  /** A user without a `custom:Rut` claim, or with a null one, is never reported as matching. */
  lemma NoClaimNeverMatches(claim: RutClaim, ocrText: string)
    requires claim.Missing? || claim.Null?
    ensures !VerifyDocument(claim, ocrText).Checked? || !VerifyDocument(claim, ocrText).isMatch
  {
    if VerifyDocument(claim, ocrText).Checked? {
      MatchIff(claim, ocrText);
    }
  }
}
